=== FILE: README.md ===
# ordem-compra in Dafny

A model of the decision logic of **ordem-compra**, a purchase-order register. A
browser front end (public/script.js, public/calendar.js) keeps the order list
in memory and talks to an Express server (server.js) that passes requests on to
a Supabase table `ordens_compra`. The model covers the pure rules inside that
glue:

- the Brazilian-real currency codec, `formatCurrency` and `parseCurrency`, with
  `toFixed`, `parseFloat` and `parseInt` written out (modules `Currency`, `Text`);
- the line-item table of the order form: adding, removing and renumbering rows,
  line totals, the order total, loading an order's items for editing and the
  item payload sent on save (`ItemForm`);
- the order list: month filter, dashboard counters, next order number, the id
  fingerprint that decides re-rendering, the list edits after create, update
  and delete, and the status flip (`Orders`);
- the supplier cache, rebuilt on every load with the first order winning, and
  the autocomplete search over it (`Suppliers`);
- the four calls that change the in-memory list: polling load, status toggle
  with rollback, save and delete, each as a function of what the server
  answered (`Client`);
- the five-tab form wizard (`Wizard`);
- the month navigation and the month-picker modal (`Dates`, `Calendar`);
- the server's rules: the camelCase to snake_case row for POST and PUT, the
  forced and defaulted status, the PATCH whitelist, the authentication
  middleware, and the mapping of store errors to HTTP replies (`Server`).

JavaScript values that cross these boundaries are modelled by `Js.JsValue`.
Numbers are exact reals. Strings are `seq<char>`. Calendar dates are
`(year, month 0..11, day)` triples.

The list is fetched whole by `loadOrdens` and filtered by month in the browser
(public/script.js:143-185, 1418-1424). The model follows that code rather than a
month-scoped fetch.

`DEVELOPMENT_MODE` is a constant `true` in public/script.js:4. The model takes
it as a parameter `devMode` so that the 401 branches can be stated.

## Model

| member | source | states |
|---|---|---|
| Text.ToUpperCase | public/script.js:25-27 | an empty value gives "", and otherwise every character is upper-cased with the length unchanged |
| Text.ToUpperCaseIdempotent | public/script.js:25-27 | upper-casing an already upper-cased text changes nothing |
| Text.Trim | public/script.js:246 | the result is the slice of the input that starts after its leading white space and is followed only by white space; it neither starts nor ends with white space, and it is empty exactly when the input is all white space |
| Text.ParseIntOfIntToString | public/script.js:1426-1433 | `parseInt` of the decimal text of any integer gives back that integer |
| Text.ParseInt | public/script.js:1283 | `parseInt` of text without a digit is NaN |
| Text.ParseFloat | public/script.js:1455 | `parseFloat` of text without a digit is NaN |
| Text.ParseFloatLeadingJunk | public/script.js:1455 | `parseFloat` of text whose first character is not white space, a digit, a sign, a point or the `I` of `Infinity` is NaN, whatever follows |
| Text.ParseFloatInteger | public/script.js:751-752 | `parseFloat` of an optional minus sign and digits is exactly that integer |
| Text.ParseFloatDecimal | public/script.js:1455 | `parseFloat` of an optional minus sign, digits, a point and digits is exactly that decimal number |
| Currency.RoundedCents | public/script.js:1442 | `toFixed(2)` rounds the magnitude half-up to whole cents: n ≤ \|x\|·100 + 0.5 < n + 1 |
| Currency.TwoDigits | public/script.js:1442-1443 | the fraction part is exactly two digits denoting the cents below 100 |
| Currency.FormatCurrency | public/script.js:1440-1446 | the text ends in a comma and two digits whose value is the number's rounded cents below 100 |
| Currency.GroupIsGrouped | public/script.js:1444 | after the grouping regex, dots stand exactly at every fourth place from the right and everything else is a digit, with a non-empty leading group that starts with `0` only for 0 itself |
| Currency.RemoveDotsOfGroup | public/script.js:1444-1453 | deleting the dots of a grouped integer gives back its digits, so the grouping inserts dots and nothing else |
| Currency.FormatIsBrl | public/script.js:1440-1446 | every output is `R$ `, an optional `-`, a grouped integer part, `,` and exactly two digits |
| Currency.FormatSign | public/script.js:1440-1446 | the output starts with `R$ `, and its fourth character is `-` exactly for a negative value |
| Currency.ParseCurrency | public/script.js:1448-1456 | a number comes back unchanged, any other falsy value reads as 0, and text whose cleaned form `parseFloat` cannot read reads as 0 |
| Currency.StripSymbol | public/script.js:1452 | removing `R$` never lengthens the text, and text that does not start with `R` keeps its first character; where the symbols go is stated by Currency.StripSymbolDropsSymbol, Currency.StripSymbolKeepsLoneR, Currency.StripSymbolAppend and Currency.StripSymbolNoR |
| Currency.StripSymbolDropsSymbol | public/script.js:1452 | an `R$` is deleted together with one white-space character right after it |
| Currency.StripSymbolKeepsLoneR | public/script.js:1452 | an `R` not followed by `$` is kept, so `R1` still reads as text starting with a letter |
| Currency.StripSymbolAppend | public/script.js:1452 | the deletion works piece by piece at any seam that is not inside a symbol, so every `R$` of the text goes, mid-text ones included |
| Currency.StripSymbolNoR | public/script.js:1452 | text without an `R` is left unchanged |
| Currency.RemoveDots | public/script.js:1453 | no dot is left, the text does not grow, and text that does not start with a dot keeps its first character |
| Currency.CommaToPoint | public/script.js:1454 | the length is kept and every character is kept except that a comma may become a point |
| Currency.UnparseableIsZero | public/script.js:1451-1455 | text with no digit reads as 0, because the cleaning adds none and `parseFloat` gives NaN |
| Currency.LeadingLetterIsZero | public/script.js:1451-1455 | text starting with a letter other than `R` or `I` reads as 0 even when digits follow, as in `abc1` |
| Currency.ReadsWholeAmount | public/script.js:1451-1455 | a typed `[R$[ ]][-]` followed by digits and dots, such as `R$ 1.234`, reads as the value of its digits, signed |
| Currency.ReadsDecimalAmount | public/script.js:1451-1455 | a typed `[R$[ ]][-]` followed by digits and dots, a comma and digits, such as `12,5`, reads as that decimal number, signed |
| Currency.ParseFormat | public/script.js:1440-1456 | reading back a formatted amount gives the amount rounded to whole cents, sign included |
| Currency.CentsRoundTrip | public/script.js:1440-1456 | every whole-cent amount, positive or negative, survives format then parse exactly |
| Currency.FormatParseFormat | public/script.js:1440-1456 | formatting a re-read formatted amount reproduces the text, except for negatives that round to zero cents |
| Currency.NegativeZeroCents | public/script.js:1440-1456 | an amount in (-0.005, 0) reads back as 0, and reformatting that 0 does not give back the printed text (which carries a minus sign) |
| Currency.ZeroAmount | public/script.js:758-768 | zero prints as `R$ 0,00` and `R$ 0,00` reads back as 0 |
| Dates.Overflow | public/script.js:372 | a day past the end of the month runs into the next months; the date is kept exactly when the day fits, a day up to 28 past the end lands on that day of the next month, and the result is a valid date no earlier than the start month |
| Dates.SetMonth | public/script.js:372 | `setMonth` gives a valid date; when the day exists in the month denoted by the possibly out-of-range index it is that day of that month, and otherwise it is the overflow day of the following month |
| Dates.ChangeMonthAsWritten | public/script.js:371-374 | the navigation as written yields a valid date `direction` months away with the same day when the day fits, and otherwise one month further on the overflow day |
| Dates.ChangeMonthAsWrittenShortDay | public/script.js:371-374 | for a day up to 28, the navigation as written moves by exactly `direction` months and keeps the day |
| Dates.ChangeMonthSkipsFebruary | public/script.js:371-374 | from 31 January 2025, one step forward lands on 3 March 2025, two months on |
| Dates.ChangeMonthNoRoundTrip | public/script.js:371-374 | stepping forward and then back from 31 January 2025 ends on 3 February, not January |
| Dates.ChangeMonth | public/script.js:371-374 | corrected navigation: a valid first-of-month date exactly `direction` months away |
| Dates.ChangeMonthRoundTrip | public/script.js:371-374 | corrected navigation forward and back returns to the same month, and to the same date when it is a first of month |
| Dates.FirstOfMonth | public/calendar.js:55 | `new Date(y, m, 1)` is a valid first-of-month whose month index is y·12 + m, with years 0..99 read as 1900..1999 |
| Calendar.Toggle | public/calendar.js:7-16 | toggling flips the shown state, and opening resets the picker year to the year of the month being shown |
| Calendar.ChangeYear | public/calendar.js:18-21 | the picker year changes by exactly `direction` and nothing else changes |
| Calendar.ChangeYearRoundTrip | public/calendar.js:18-21 | stepping the year there and back restores the picker |
| Calendar.SelectMonth | public/calendar.js:54-58 | the shown month becomes day 1 of the chosen month of the picker year, and the picker is toggled |
| Calendar.SelectThenReopen | public/calendar.js:54-58 | choosing a month from the open picker closes it on that month, and reopening marks that month |
| Calendar.Render | public/calendar.js:39-51 | there are twelve buttons in month order, and button i is marked exactly when the picker year and i are the current year and month |
| Calendar.RenderMarksOne | public/calendar.js:39-51 | at most one button is marked, and exactly one when the picker shows the current year, namely the current month's |
| Calendar.OpenMarksCurrent | public/calendar.js:7-16 | opening the picker always shows the current month marked |
| Orders.MonthOrders | public/script.js:1418-1424 | an order is kept exactly when it is in the list and its date has the current month and year |
| Orders.MonthOrdersAppend | public/script.js:1418-1424 | the month filter distributes over concatenation |
| Orders.CountStatus | public/script.js:1279-1280 | the count is at most the list length, and zero exactly when no order has that status |
| Orders.CountStatusAppend | public/script.js:1279-1280 | the count of a status distributes over concatenation |
| Orders.OpenPlusClosed | public/script.js:1279-1280 | open plus closed never exceeds the list, and equals it exactly when every status is one of the two |
| Orders.SumValues | public/script.js:1288-1291 | no orders sum to 0, and one order sums to its re-read amount |
| Orders.SumValuesAppend | public/script.js:1288-1291 | the sum of amounts distributes over concatenation |
| Orders.ParsedNumbers | public/script.js:1427-1429 | a number is present exactly when some order number parses to it |
| Orders.Max | public/script.js:1431 | the maximum is an element and bounds every element |
| Orders.NextOrderNumber | public/script.js:1426-1433 | "1250" when no number parses; otherwise the decimal text of one more than the largest parsed number, which is above every parsed number |
| Orders.UltimoNumero | public/script.js:1282-1286 | 0 when no number parses, and otherwise the largest parsed number: it bounds every parsed number and is one of them |
| Orders.ComputeDashboard | public/script.js:1277-1296 | the closed and open counts are those of the month's orders and do not exceed them together, the last number is that of the whole list, and the amount is the formatted sum of the month's re-read amounts |
| Orders.UltimoIsGlobal | public/script.js:1277-1296 | the "last number" figure does not depend on the month shown |
| Orders.OtherMonthIgnored | public/script.js:1277-1296 | adding an order of another month leaves the month's counts and amount unchanged |
| Orders.Fingerprint | public/script.js:177-181 | the fingerprint is the list of ids, position by position |
| Orders.FindIndex | public/script.js:858 | the first position carrying the id, or -1 when none does |
| Orders.Create | public/script.js:862 | the saved order is appended and nothing before it changes |
| Orders.Update | public/script.js:858-859 | the first entry with the id is replaced, nothing else changes, and an unknown id changes nothing |
| Orders.UpdateKeepsFingerprint | public/script.js:858-859 | replacing an entry with an order of the same id keeps the fingerprint |
| Orders.Delete | public/script.js:1098 | an order survives exactly when it was in the list and carries another id |
| Orders.DeleteAbsent | public/script.js:1098 | deleting an id that is not there keeps the list |
| Orders.DeleteAppend | public/script.js:1098 | the filter distributes over concatenation |
| Orders.CreateThenDelete | public/script.js:862 | deleting a just-created order with a fresh id gives back the list from before |
| Orders.Flip | public/script.js:1112 | `aberta` becomes `fechada`, and every other status, unknown ones included, becomes `aberta` |
| Orders.FlipInvolution | public/script.js:1112 | flipping twice gives back either known status |
| Suppliers.EntryOf | public/script.js:249-258 | the razão social, nome fantasia, endereço and contato are upper-cased, and the CNPJ, site, telefone and e-mail are copied |
| Suppliers.Add | public/script.js:248-259 | a filing is added only under a new non-empty key, and the cache stays well formed |
| Suppliers.Build | public/script.js:242-263 | the cache rebuilt from the orders is well formed: its key list has no repeats and matches its entries |
| Suppliers.AddAllFirstWins | public/script.js:245-260 | a key is cached exactly when it is non-empty and filed, and its entry is that of the first filing under it |
| Suppliers.BuildFirstWins | public/script.js:242-263 | the rebuilt cache holds exactly the non-empty keys of the orders, each with the entry of the first order carrying it |
| Suppliers.BuildExtends | public/script.js:242-263 | later orders never overwrite a cached entry |
| Suppliers.Matching | public/script.js:269-270 | a key is kept exactly when it is cached and contains the term |
| Suppliers.MatchingAppend | public/script.js:269-270 | a key added last to the cache is matched last, so matches keep the cache order |
| Suppliers.Search | public/script.js:265-273 | at most five results; none for a trimmed upper-cased term shorter than 2; otherwise the entries of the first five (or fewer) keys containing the term, in cache order |
| Suppliers.SearchSound | public/script.js:265-273 | every result is the entry of a key containing the term, and with fewer than five results every such entry is found |
| ItemForm.ReadNumber | public/script.js:751-752 | a number reads as itself, undefined, null or a boolean reads as 0, and text without a digit reads as 0 |
| ItemForm.ReadTypedNumber | public/script.js:751-752 | typed text of an optional minus and digits, with or without a decimal point and digits, reads as the number it denotes |
| ItemForm.NonNumericQuantity | public/script.js:749-756 | a quantity that is not a number makes the line total that of 0 |
| ItemForm.NonNumericPrice | public/script.js:749-756 | a price that is not a number makes the line total that of 0 |
| ItemForm.CalculateItemTotal | public/script.js:749-756 | the edited row shows the formatted product of quantity and price, the other rows are unchanged, and the order total is recalculated |
| ItemForm.SetQuantity | public/script.js:749-756 | after a quantity change the row shows the total of its new quantity, the other rows are unchanged, and the order total follows |
| ItemForm.SetPrice | public/script.js:749-756 | after a price change the row shows the total of its new price, the other rows are unchanged, and the order total follows |
| ItemForm.OrderTotal | public/script.js:758-768 | with no rows the order total is `R$ 0,00` |
| ItemForm.SumOfFormattedLines | public/script.js:758-768 | summing re-read formatted line totals gives the sum of the amounts rounded line by line to cents |
| ItemForm.Renumber | public/script.js:741-747 | the rows keep their contents, are labelled 1..N in order, and the counter becomes N |
| ItemForm.RenumberKeepsTotal | public/script.js:741-747 | renumbering does not change the order total |
| ItemForm.RemoveItem | public/script.js:734-747 | the row is gone, the rest keep their order and contents with labels 1..N, the counter is N and the order total matches the rows |
| ItemForm.RemoveLastRow | public/script.js:734-739 | removing the only row leaves an empty table with total `R$ 0,00` |
| ItemForm.AddItem | public/script.js:696-732 | a default row labelled with the incremented counter is appended, and the order total is left as it was |
| ItemForm.AppendZeroRow | public/script.js:721 | a new row's `R$ 0,00` adds nothing to the sum of line totals |
| ItemForm.AddItemKeepsInvariant | public/script.js:696-732 | on a numbered table showing its total, adding a row keeps both properties |
| ItemForm.BuildItems | public/script.js:775-786 | one payload item per row, numbered by position, with numbers read from the inputs and the total text as shown |
| ItemForm.LoadedRow | public/script.js:1053-1059 | a stored quantity defaults to 1, a price to 0 and an empty total to `R$ 0,00` |
| ItemForm.LoadRows | public/script.js:1048-1061 | one row per stored item, labelled by position |
| ItemForm.LoadForEdit | public/script.js:1048-1064 | the table is numbered; there is one empty row for an order without items; the total input shows the stored amount |
| ItemForm.SaveThenLoad | public/script.js:1048-1064 | saving and reopening keeps labels, line totals and prices, and every quantity that is not 0 |
| ItemForm.ZeroQuantityReloadsAsOne | public/script.js:1054 | a saved quantity of 0 reopens as 1 |
| Wizard.Next | public/script.js:426-432 | the tab moves one forward except on the last tab, and stays in range |
| Wizard.Previous | public/script.js:434-440 | the tab moves one back except on the first tab, and stays in range |
| Wizard.NextPreviousInverse | public/script.js:426-440 | Next undoes Previous away from the first tab, and vice versa |
| Wizard.NextReachesLast | public/script.js:426-432 | n presses of Next move min(n, distance to the last tab) tabs forward |
| Wizard.SwitchTab | public/script.js:384-391 | a known tab id selects its index, and an unknown one changes nothing |
| Wizard.IndexOf | public/script.js:385 | the index returned holds the given tab id |
| Wizard.NavButtons | public/script.js:404-424 | Previous shows after the first tab; Save shows exactly when Next does not, which is on the last tab |
| Wizard.ButtonsMatchMoves | public/script.js:404-440 | Next and Previous are visible exactly when pressing them moves the tab |
| Client.LoadOrders | public/script.js:143-185 | nothing changes offline or on a failed or unparsable response; a 401 ends the session; a delivered list replaces the orders, rebuilds the cache and the hash, and redraws exactly when the ids changed |
| Client.LoadSynchronises | public/script.js:170-181 | after a delivered load the hash matches the ids and the cache is built from the stored list |
| Client.ContentChangeNotRedrawn | public/script.js:177-181 | a poll with the same ids but changed contents stores the new list without redrawing |
| Client.Flipped | public/script.js:1112-1114 | only the chosen order changes, and only in its status, which is flipped |
| Client.ToggleStatus | public/script.js:1108-1158 | an unknown id changes nothing; offline the flip stays; a 401 keeps the flip and ends the session; any other failure restores the list exactly; a delivered order replaces the entry |
| Client.ToggleTwiceOffline | public/script.js:1108-1121 | two offline toggles of a known status give back the list |
| Client.ToggleKeepsIds | public/script.js:1150-1152 | a toggle keeps the ids when the order comes back under its own id |
| Client.Submit | public/script.js:812-873 | POST appends and PUT replaces the edited entry, then the hash is retaken; offline or on any failure nothing changes; a 401 ends the session |
| Client.SubmitCreateAppends | public/script.js:855-866 | a created order ends the list and the hash matches the ids |
| Client.DeleteOrder | public/script.js:1067-1106 | without confirmation, offline or on failure nothing changes; on success the list is exactly Orders.Delete of the id and the hash matches |
| Client.DevModeNeverDenies | public/script.js:161-165 | in development mode no call ends the session |
| Client.HashStaysCurrent | public/script.js:177-181 | every call keeps the hash equal to the list's ids |
| Server.ColumnValue | server.js:145-165 | a required field is copied as sent; an optional one is kept when truthy and is null otherwise |
| Server.ColumnProperties | server.js:145-165 | one property per column in table order, each the column's value from the body |
| Server.PostRow | server.js:145-167 | the row is the column properties followed by status `aberta` |
| Server.PutRow | server.js:199-221 | the row is the column properties followed by the body's status, or `aberta` when that is missing or falsy |
| Server.PostIgnoresStatus | server.js:166 | the POST row is the same whatever status the body carries |
| Server.PostPutAgree | server.js:199-221 | POST and PUT rows have the same keys in the same order and agree everywhere except on status |
| Server.OptionalNeverFalsy | server.js:150-165 | an optional column is null or truthy, never another falsy value |
| Server.ErrorReply | server.js:119-136 | 404 exactly for `PGRST116` on a single-row route, and 500 with the route's message otherwise |
| Server.SingleRowReply | server.js:110-138 | a stored row is a 200 with it, `PGRST116` is a 404, and any other store error is a 500 with the route's message |
| Server.ListReply | server.js:84-107 | a list answer is a 200 carrying the store's list, or `[]` when the store gives none, and any store error is a 500 |
| Server.GetReply | server.js:110-138 | a row is a 200, a missing row is a 404, and any other error is a 500, as for every single-row route |
| Server.PostReply | server.js:171-191 | an inserted row is a 201, and every store error is a 500 |
| Server.PutReply | server.js:225-250 | an updated row is a 200, a missing row is a 404, and any other error is a 500, as for every single-row route |
| Server.PatchReply | server.js:254-289 | an invalid status is a 400; otherwise the store's answer maps as for every single-row route |
| Server.PatchedStatus | server.js:257-265 | a valid PATCH writes `aberta` or `fechada`, as sent |
| Server.PatchRejectsBeforeStore | server.js:257-261 | a refused PATCH replies 400 whatever the store would answer |
| Server.DeleteReply | server.js:292-315 | success is a 200, and any store error, `PGRST116` included, is a 500 |
| Server.NotFoundRoutes | server.js:119-123 | `PGRST116` is a 404 on GET-by-id, PUT and PATCH, but a 500 on POST and DELETE |
| Server.Authenticate | server.js:45-81 | a request proceeds exactly on a public path or with a token that the portal answers ok and valid; a missing token is a 401; a portal exception is the only 500 |
| Server.NoTokenSkipsPortal | server.js:49-53 | without a token the portal's answer does not matter |
| Server.Handle | server.js:84 | a request the middleware denies gets the middleware's reply |
| Server.DeniedIgnoresRoute | server.js:45-81 | a denied request gets the same 401 or 500 whatever the route and the store |

## Left out

- Rendering, modals, toasts, autocomplete widgets, upper-casing input listeners and PDF generation are left out: they only produce DOM or log output.
- `fetch`, session storage, `setInterval` polling, `checkServerStatus` and `syncData` (public/script.js:89-240) are left out. Each call's response is a parameter of the modelled operation.
- Supabase and Express are left out. A store answer is a parameter (`Server.StoreResult`), and so is the portal's verify-session answer (`Server.Verify`).
- JavaScript numbers are exact reals: binary floating-point rounding of `qtd * valor` and of `toFixed` is not modelled. `toFixed(2)` is taken as rounding the exact value half-up.
- `parseFloat` does not read the literal `Infinity`, and number-to-string conversion (`String(n)` for a number) is not modelled. A numeric value never reaches the text path of `parseCurrency` (public/script.js:1449).
- Currency.FormatIsBrl: for an amount of magnitude 10^21 or more `toFixed` gives exponential text, so `formatCurrency(1e21)` is `R$ 1e+21,undefined`; the model, on exact reals, always prints digits, and the grouped shape is promised only where JavaScript prints digits.
- Currency.FormatCurrency: the same bound applies; amounts of 10^21 and above are not modelled as JavaScript prints them.
- Orders.NextOrderNumber: order numbers are exact integers. Above 2^53 `parseInt` and `Math.max(...) + 1` round to the nearest double, so the text for such numbers may differ.
- Orders.UltimoNumero: the same 2^53 bound applies.
- Currency.FormatCurrency: takes a number. The `parseFloat(value) || 0` applied to its argument (public/script.js:1441) is the identity on the numbers it is given. Its shape is stated by Currency.FormatIsBrl and Currency.FormatSign, and its value by Currency.ParseFormat.
- Text.ToUpperCase: takes text. The `String(value)` conversion of a non-text argument is not modelled, since the callers pass input text.
- Date strings are not parsed: an order's `data_ordem` is an `Option<CalDate>`. The `T00:00:00` parsing and the local time zone of public/script.js:1420 are left out.
- `toUpperCase` covers ASCII and the Latin-1 lower-case letters that have a one-character upper-case form. `ß`, `ÿ`, `µ` and letters beyond Latin-1 are left out.
- The snake_case/camelCase fallbacks are folded into one field each: `razao_social || razaoSocial`, `valor_total || valorTotal`, `data_ordem || dataOrdem` (public/script.js:1420), `numero_ordem || numeroOrdem` (public/script.js:1283, 1428), and in stored items `valorUnitario || valor_unitario` (public/script.js:1055) and `valorTotal || valor_total`. A database null and an empty text are the same value there.
- A stored item total is text. A numeric `valor_total` inside a stored item is not modelled.
- Suppliers.Search: the two-character minimum counts Unicode scalar values, while JavaScript's `length` counts UTF-16 code units, so a single character outside the Basic Multilingual Plane (an emoji) counts 1 here and 2 there.
- Suppliers.Search: lists keys in insertion order. Object keys that look like array indices, which JavaScript lists first, are not modelled; no razão social of that shape is expected.
- Client.ToggleStatus: calls are taken one at a time. A poll that replaces the list between the optimistic flip and the rollback (public/script.js:1153) is not modelled.
- ItemForm.OrderTotal: states only the empty case in its contract. The sum of re-read line totals is stated by ItemForm.SumOfFormattedLines.
- Server.Handle: states only the denied case. The routes' replies are stated by their own members.
- The form payload of handleSubmit is not modelled. It always carries `status: 'aberta'` (public/script.js:809), and PUT stores the body's status (server.js:220), so saving an edited closed order stores it as open; whether that reopening is intended is not evident, so it is not claimed as a finding.
- The PATCH route's crash on a missing body (`const { status } = req.body`) and non-array store answers are not modelled.
- The public paths `/` and `/health` are modelled in Server.Authenticate, but the middleware is mounted only on `/api/ordens` routes, so they never reach it there.

## Findings

| source | as written | input that shows it | evidently intended | confidence | as-written member | corrected member |
|---|---|---|---|---|---|---|
| public/script.js:371-374 | `currentMonth.setMonth(currentMonth.getMonth() + direction)` keeps the day of the month, so a day missing in the target month overflows into the month after | `currentMonth` = 31 January 2025, `direction` = 1 gives 3 March 2025, and February is skipped | move to the neighbouring month, for example by setting day 1 first (as selectMonth at public/calendar.js:55 does) | not executed | Dates.ChangeMonthSkipsFebruary | Dates.ChangeMonth |

=== FILE: calendar.dfy ===
/**
 The month picker of public/calendar.js: whether the modal is shown, the year
 it displays (`calendarYear`), and the month the order list is showing
 (`currentMonth`).
 */
module Calendar {
  import opened Dates

  datatype Picker = Picker(shown: bool, year: int, current: CalDate)

  /** One of the twelve month buttons: its position, its label and whether
      it carries the `current` class. */
  datatype MonthCell = MonthCell(index: nat, name: string, marked: bool)

  const MonthNames: seq<string> := [
    "Janeiro", "Fevereiro", "Março", "Abril", "Maio", "Junho",
    "Julho", "Agosto", "Setembro", "Outubro", "Novembro", "Dezembro"
  ]

  /** toggleCalendar: hides a shown picker; opening it first jumps to the
      year of the month being shown. */
  function Toggle(p: Picker): (r: Picker)
    ensures r.shown == !p.shown
    ensures r.current == p.current
    ensures r.year == (if p.shown then p.year else p.current.year)
  {
    if p.shown then p.(shown := false) else p.(shown := true, year := p.current.year)
  }

  /** changeCalendarYear(direction). */
  function ChangeYear(p: Picker, direction: int): (r: Picker)
    ensures r.year == p.year + direction
    ensures r.shown == p.shown && r.current == p.current
  {
    p.(year := p.year + direction)
  }

  /** selectMonth(index): the shown month becomes day 1 of that month of the
      picker's year, then the picker is toggled. */
  function SelectMonth(p: Picker, index: int): (r: Picker)
    requires 0 <= index < 12
    ensures r.current == FirstOfMonth(p.year, index)
    ensures r.shown == !p.shown
  {
    Toggle(p.(current := FirstOfMonth(p.year, index)))
  }

  /** Whether the button of month `index` is marked as the current month. */
  predicate IsCurrent(p: Picker, index: int) {
    p.year == p.current.year && index == p.current.month
  }

  /** renderCalendar's month buttons, in order. */
  function Render(p: Picker): (cells: seq<MonthCell>)
    ensures |cells| == 12
    ensures forall i :: 0 <= i < 12 ==>
              cells[i].index == i && cells[i].name == MonthNames[i] && (cells[i].marked <==> IsCurrent(p, i))
  {
    seq(12, i requires 0 <= i < 12 => MonthCell(i, MonthNames[i], IsCurrent(p, i)))
  }

  function MarkedCount(cells: seq<MonthCell>): nat {
    if |cells| == 0 then 0
    else MarkedCount(cells[..|cells| - 1]) + (if cells[|cells| - 1].marked then 1 else 0)
  }

  /** Marked cells of a prefix when only position `k` may be marked. */
  lemma {:induction false} MarkedCountAtMostOne(cells: seq<MonthCell>, k: int)
    requires forall i :: 0 <= i < |cells| && i != k ==> !cells[i].marked
    ensures MarkedCount(cells) == (if 0 <= k < |cells| && cells[k].marked then 1 else 0)
  {
    if |cells| > 0 {
      MarkedCountAtMostOne(cells[..|cells| - 1], k);
    }
  }

  /** At most one button is marked, exactly one when the picker shows the
      year of the current month, and then it is that month's button. */
  lemma RenderMarksOne(p: Picker)
    requires Valid(p.current)
    ensures MarkedCount(Render(p)) <= 1
    ensures MarkedCount(Render(p)) == 1 <==> p.year == p.current.year
    ensures p.year == p.current.year ==> Render(p)[p.current.month].marked
  {
    MarkedCountAtMostOne(Render(p), p.current.month);
  }

  /** Opening the picker always shows the current month marked. */
  lemma OpenMarksCurrent(p: Picker)
    requires !p.shown && Valid(p.current)
    ensures Toggle(p).shown
    ensures MarkedCount(Render(Toggle(p))) == 1
    ensures Render(Toggle(p))[p.current.month].marked
  {
    RenderMarksOne(Toggle(p));
  }

  /** Choosing a month from the open picker closes it on that month, and
      reopening marks the chosen button. */
  lemma SelectThenReopen(p: Picker, index: int)
    requires p.shown && 0 <= index < 12 && !(0 <= p.year <= 99)
    ensures var q := SelectMonth(p, index);
            !q.shown && q.current == CalDate(p.year, index, 1)
            && Render(Toggle(q))[index].marked && Toggle(q).year == p.year
  {
  }

  /** Stepping the year there and back restores the picker. */
  lemma ChangeYearRoundTrip(p: Picker, direction: int)
    ensures ChangeYear(ChangeYear(p, direction), -direction) == p
  {
  }
}

=== FILE: client.dfy ===
/**
 The order list as public/script.js keeps it in memory, and the four calls
 that change it: the polling load, toggling a status with rollback, saving
 the form (create or update) and deleting. The answer of the server is a
 parameter; `devMode` stands for `DEVELOPMENT_MODE` and `online` for
 `isOnline`.
 */
module Client {
  import opened Js
  import opened Orders
  import opened Suppliers

  /** What `fetch` gave: an exception, or a response with its status and its
      parsed JSON body (`None` when `response.json()` throws). */
  datatype Response<T> = Threw | Answered(status: int, data: Option<T>)

  predicate Ok(status: int) {
    200 <= status < 300
  }

  /** The request is sent at all. */
  predicate Reaches(online: bool, devMode: bool) {
    online || devMode
  }

  /** A 401 outside development mode ends the session. */
  predicate Expired<T>(devMode: bool, resp: Response<T>) {
    resp.Answered? && !devMode && resp.status == 401
  }

  /** The response is ok and its body parses. */
  predicate Delivered<T>(resp: Response<T>) {
    resp.Answered? && Ok(resp.status) && resp.data.Some?
  }

  /** `ordens`, `fornecedoresCache`, `lastDataHash` (`None` before the first
      load) and whether the access-denied screen is up. */
  datatype Client = Client(
    orders: seq<Order>,
    cache: Cache,
    lastHash: Option<seq<string>>,
    denied: bool)

  /** The client after a call, and whether it called `updateDisplay`. */
  datatype Step = Step(after: Client, rendered: bool)

  /** The hash agrees with the list's ids. */
  predicate HashCurrent(c: Client) {
    c.lastHash == Some(Fingerprint(c.orders))
  }

  // ---------------------------------------------------------------------
  // loadOrdens
  // ---------------------------------------------------------------------

  /** loadOrdens: nothing happens offline outside development mode or on a
      failed request; a delivered list replaces the orders and rebuilds the
      cache, and the display is redrawn only when the ids changed. */
  function LoadOrders(c: Client, online: bool, devMode: bool, resp: Response<seq<Order>>): (r: Step)
    ensures Reaches(online, devMode) && Expired(devMode, resp) ==> r == Step(c.(denied := true), false)
    ensures !(Reaches(online, devMode) && (Expired(devMode, resp) || Delivered(resp))) ==> r == Step(c, false)
    ensures Reaches(online, devMode) && Delivered(resp) ==>
              var data := resp.data.value;
              && r.after == Client(data, Build(data), Some(Fingerprint(data)), c.denied)
              && (r.rendered <==> c.lastHash != Some(Fingerprint(data)))
  {
    if !Reaches(online, devMode) then Step(c, false)
    else match resp
      case Threw => Step(c, false)
      case Answered(status, data) =>
        if !devMode && status == 401 then Step(c.(denied := true), false)
        else if !Ok(status) then Step(c, false)
        else if data.None? then Step(c, false)
        else
          var newHash := Fingerprint(data.value);
          Step(Client(data.value, Build(data.value), Some(newHash), c.denied), Some(newHash) != c.lastHash)
  }

  /** A load that delivers leaves the cache built from the list it stored. */
  lemma LoadSynchronises(c: Client, online: bool, devMode: bool, resp: Response<seq<Order>>)
    requires Reaches(online, devMode) && Delivered(resp)
    ensures HashCurrent(LoadOrders(c, online, devMode, resp).after)
    ensures LoadOrders(c, online, devMode, resp).after.cache == Build(LoadOrders(c, online, devMode, resp).after.orders)
  {
  }

  /** A poll that brings the same ids with changed contents (another user
      closed an order, say) stores them but does not redraw. */
  lemma ContentChangeNotRedrawn(c: Client, online: bool, devMode: bool, data: seq<Order>)
    requires Reaches(online, devMode) && HashCurrent(c)
    requires Fingerprint(data) == Fingerprint(c.orders)
    ensures LoadOrders(c, online, devMode, Answered(200, Some(data))).after.orders == data
    ensures !LoadOrders(c, online, devMode, Answered(200, Some(data))).rendered
  {
  }

  // ---------------------------------------------------------------------
  // toggleStatus
  // ---------------------------------------------------------------------

  /** The list with the status of order `k` flipped. */
  function Flipped(orders: seq<Order>, k: int): (r: seq<Order>)
    requires 0 <= k < |orders|
    ensures |r| == |orders| && r[k].status == Flip(orders[k].status)
    ensures r[k] == orders[k].(status := r[k].status)
    ensures forall i :: 0 <= i < |orders| && i != k ==> r[i] == orders[i]
  {
    orders[k := orders[k].(status := Flip(orders[k].status))]
  }

  /** toggleStatus: an unknown id changes nothing; otherwise the status is
      flipped at once and drawn; offline outside development mode it stays
      flipped; a 401 keeps the flip and ends the session; any other failure
      puts the old status back; a delivered order replaces the entry. */
  function ToggleStatus(c: Client, id: string, online: bool, devMode: bool, resp: Response<Order>): (r: Step)
    ensures FindIndex(c.orders, id) == -1 ==> r == Step(c, false)
    ensures FindIndex(c.orders, id) >= 0 ==>
              var k := FindIndex(c.orders, id);
              && r.rendered
              && r.after.cache == c.cache && r.after.lastHash == c.lastHash
              && (!Reaches(online, devMode) ==> r.after == c.(orders := Flipped(c.orders, k)))
              && (Reaches(online, devMode) && Expired(devMode, resp) ==>
                    r.after == c.(orders := Flipped(c.orders, k), denied := true))
              && (Reaches(online, devMode) && !Expired(devMode, resp) && !Delivered(resp) ==> r.after == c)
              && (Reaches(online, devMode) && Delivered(resp) ==>
                    r.after == c.(orders := c.orders[k := resp.data.value]))
  {
    var k := FindIndex(c.orders, id);
    if k == -1 then Step(c, false)
    else
      var optimistic := Flipped(c.orders, k);
      if !Reaches(online, devMode) then Step(c.(orders := optimistic), true)
      else match resp
        case Threw => Step(c.(orders := optimistic[k := c.orders[k]]), true)
        case Answered(status, data) =>
          if !devMode && status == 401 then Step(c.(orders := optimistic, denied := true), true)
          else if !Ok(status) || data.None? then Step(c.(orders := optimistic[k := c.orders[k]]), true)
          else
            assert FindIndex(optimistic, id) == k;
            Step(c.(orders := optimistic[k := data.value]), true)
  }

  /** Toggling twice without reaching the server gives the list back, for an
      order whose status is one of the two known ones. */
  lemma ToggleTwiceOffline(c: Client, id: string, devMode: bool, r1: Response<Order>, r2: Response<Order>)
    requires !devMode
    requires FindIndex(c.orders, id) >= 0
    requires c.orders[FindIndex(c.orders, id)].status in {"aberta", "fechada"}
    ensures ToggleStatus(ToggleStatus(c, id, false, devMode, r1).after, id, false, devMode, r2).after == c
  {
    var k := FindIndex(c.orders, id);
    var once := ToggleStatus(c, id, false, devMode, r1).after;
    assert forall i :: 0 <= i < k ==> once.orders[i].id == c.orders[i].id;
    assert FindIndex(once.orders, id) == k;
    FlipInvolution(c.orders[k].status);
  }

  // ---------------------------------------------------------------------
  // handleSubmit
  // ---------------------------------------------------------------------

  /** handleSubmit: POST appends the saved order, PUT replaces the entry with
      the edited id (none when it is gone); either way the hash is taken
      again and the display redrawn. Offline outside development mode, or on
      any failure, nothing changes. The cache waits for the next load. */
  function Submit(c: Client, editingId: Option<string>, online: bool, devMode: bool, resp: Response<Order>): (r: Step)
    ensures Reaches(online, devMode) && Expired(devMode, resp) ==> r == Step(c.(denied := true), false)
    ensures !(Reaches(online, devMode) && (Expired(devMode, resp) || Delivered(resp))) ==> r == Step(c, false)
    ensures Reaches(online, devMode) && Delivered(resp) ==>
              var orders := if editingId.Some? then Update(c.orders, editingId.value, resp.data.value)
                            else Create(c.orders, resp.data.value);
              r == Step(c.(orders := orders, lastHash := Some(Fingerprint(orders))), true)
  {
    if !Reaches(online, devMode) then Step(c, false)
    else match resp
      case Threw => Step(c, false)
      case Answered(status, data) =>
        if !devMode && status == 401 then Step(c.(denied := true), false)
        else if !Ok(status) || data.None? then Step(c, false)
        else
          var orders := match editingId
            case Some(id) => Update(c.orders, id, data.value)
            case None => Create(c.orders, data.value);
          Step(c.(orders := orders, lastHash := Some(Fingerprint(orders))), true)
  }

  /** A created order is the last one of the list, and nothing before it
      moved. */
  lemma SubmitCreateAppends(c: Client, online: bool, devMode: bool, saved: Order)
    requires Reaches(online, devMode)
    ensures var after := Submit(c, None, online, devMode, Answered(201, Some(saved))).after;
              after.orders == c.orders + [saved] && HashCurrent(after)
  {
  }

  // ---------------------------------------------------------------------
  // deleteOrdem
  // ---------------------------------------------------------------------

  /** deleteOrdem: unless the user confirms, the client is online (or in
      development mode) and the response is ok, nothing changes; then every
      order with that id leaves the list. The body is not read. */
  function DeleteOrder(c: Client, id: string, confirmed: bool, online: bool, devMode: bool, resp: Response<JsValue>): (r: Step)
    ensures !confirmed ==> r == Step(c, false)
    ensures confirmed && Reaches(online, devMode) && Expired(devMode, resp) ==> r == Step(c.(denied := true), false)
    ensures confirmed && Reaches(online, devMode) && resp.Answered? && Ok(resp.status) ==>
              && r.rendered
              && (forall o :: o in r.after.orders <==> o in c.orders && o.id != id)
              && r.after.orders == Delete(c.orders, id)
              && HashCurrent(r.after)
              && r.after.cache == c.cache && r.after.denied == c.denied
    ensures !(confirmed && Reaches(online, devMode) && resp.Answered? && (Ok(resp.status) || Expired(devMode, resp))) ==>
              r == Step(c, false)
  {
    if !confirmed || !Reaches(online, devMode) then Step(c, false)
    else match resp
      case Threw => Step(c, false)
      case Answered(status, _) =>
        if !devMode && status == 401 then Step(c.(denied := true), false)
        else if !Ok(status) then Step(c, false)
        else
          var orders := Delete(c.orders, id);
          Step(c.(orders := orders, lastHash := Some(Fingerprint(orders))), true)
  }

  // ---------------------------------------------------------------------
  // Properties across the calls
  // ---------------------------------------------------------------------

  /** In development mode no call ends the session. */
  lemma DevModeNeverDenies(c: Client, online: bool, id: string, editingId: Option<string>, confirmed: bool,
                           rl: Response<seq<Order>>, ro: Response<Order>, rd: Response<JsValue>)
    requires !c.denied
    ensures !LoadOrders(c, online, true, rl).after.denied
    ensures !ToggleStatus(c, id, online, true, ro).after.denied
    ensures !Submit(c, editingId, online, true, ro).after.denied
    ensures !DeleteOrder(c, id, confirmed, online, true, rd).after.denied
  {
  }

  /** A toggle keeps the ids of the list when the order comes back under its
      own id. */
  lemma ToggleKeepsIds(c: Client, id: string, online: bool, devMode: bool, ro: Response<Order>)
    requires Delivered(ro) ==> ro.data.value.id == id
    ensures Fingerprint(ToggleStatus(c, id, online, devMode, ro).after.orders) == Fingerprint(c.orders)
  {
    var after := ToggleStatus(c, id, online, devMode, ro).after;
    assert |after.orders| == |c.orders|;
    assert forall i :: 0 <= i < |c.orders| ==> after.orders[i].id == c.orders[i].id;
  }

  /** Every call keeps the hash equal to the list's ids, provided a toggled
      order comes back under its own id. */
  lemma HashStaysCurrent(c: Client, online: bool, devMode: bool, id: string, editingId: Option<string>,
                         confirmed: bool, rl: Response<seq<Order>>, ro: Response<Order>, rd: Response<JsValue>)
    requires HashCurrent(c)
    requires Delivered(ro) ==> ro.data.value.id == id
    ensures HashCurrent(LoadOrders(c, online, devMode, rl).after)
    ensures HashCurrent(ToggleStatus(c, id, online, devMode, ro).after)
    ensures HashCurrent(Submit(c, editingId, online, devMode, ro).after)
    ensures HashCurrent(DeleteOrder(c, id, confirmed, online, devMode, rd).after)
  {
    ToggleKeepsIds(c, id, online, devMode, ro);
  }
}

=== FILE: currency.dfy ===
/**
 The Brazilian-real codec of public/script.js: `formatCurrency` renders a
 number as `R$ 1.234,56` and `parseCurrency` reads such a string back.
 Numbers are exact reals, so the float drift of the original is absent and
 the round trip is exact.
 */
module Currency {
  import opened Js
  import opened Text

  // ---------------------------------------------------------------------
  // Formatting
  // ---------------------------------------------------------------------

  function Abs(x: real): real {
    if x < 0.0 then -x else x
  }

  /** The cent count `toFixed(2)` prints for |x|: the integer nearest to
      |x| * 100, the larger one on a tie. */
  function RoundedCents(x: real): (n: nat)
    ensures n as real <= Abs(x) * 100.0 + 0.5 < n as real + 1.0
  {
    (Abs(x) * 100.0 + 0.5).Floor
  }

  /** The signed cent count `toFixed(2)` stands for. */
  function CentsOf(x: real): int {
    if x < 0.0 then -(RoundedCents(x) as int) else RoundedCents(x)
  }

  /** The digit string with a `.` inserted every three digits from the right,
      as the regular expression `\B(?=(\d{3})+(?!\d))` does. */
  function Group(d: string): (r: string)
    requires IsDigits(d)
    ensures |d| >= 1 ==> |r| >= 1 && r[0] == d[0]
  {
    if |d| <= 3 then d else Group(d[..|d| - 3]) + "." + d[|d| - 3..]
  }

  function TwoDigits(k: nat): (r: string)
    requires k < 100
    ensures |r| == 2 && IsDigits(r) && DigitsValue(r) == k
  {
    var r := [DigitChar(k / 10), DigitChar(k % 10)];
    assert r[..1][..0] == [] && r[..1] == [r[0]];
    assert RadixValue(r[..1], 10) == k / 10;
    assert DigitsValue(r) == RadixValue(r[..1], 10) * 10 + DigitValue(r[1]);
    r
  }

  /** formatCurrency(value, 2): `R$ `, a minus sign for negative values, the
      integer part grouped by dots, a comma and exactly two fraction digits. */
  function FormatCurrency(value: real): (r: string)
    ensures |r| >= 6 && r[|r| - 3] == ','
    ensures IsDigits(r[|r| - 2..]) && DigitsValue(r[|r| - 2..]) == RoundedCents(value) % 100
  {
    var n := RoundedCents(value);
    var f := TwoDigits(n % 100);
    var r := "R$ " + (if value < 0.0 then "-" else "") + Group(NatToString(n / 100)) + "," + f;
    assert r[|r| - 2..] == f;
    r
  }

  /** Every dot of a grouped integer sits at a multiple of four from the
      right end, every other character is a digit, the leading group is
      not empty (so it holds one to three digits), and only `0` itself starts
      with a zero. */
  predicate IsGrouped(g: string) {
    && |g| % 4 != 0
    && (|g| > 1 ==> g[0] != '0')
    && forall i :: 0 <= i < |g| ==>
         (g[i] == '.' <==> (|g| - i) % 4 == 0) && (g[i] != '.' ==> IsDigit(g[i]))
  }

  /** A grouped integer followed by a dot and three digits is grouped. */
  lemma GroupedAppend(gp: string, t: string)
    requires IsGrouped(gp) && gp[0] != '0' && |t| == 3 && IsDigits(t)
    ensures IsGrouped(gp + "." + t)
  {
    var g := gp + "." + t;
    assert |g| == |gp| + 4 && g[0] == gp[0];
    forall i | 0 <= i < |g|
      ensures (g[i] == '.' <==> (|g| - i) % 4 == 0) && (g[i] != '.' ==> IsDigit(g[i]))
    {
      if i < |gp| {
        assert g[i] == gp[i];
        assert (|g| - i) % 4 == (|gp| - i) % 4;
      } else if i > |gp| {
        assert g[i] == t[i - |gp| - 1];
      }
    }
  }

  lemma {:induction false} GroupIsGrouped(d: string)
    requires IsDigits(d) && |d| >= 1 && (|d| > 1 ==> d[0] != '0')
    ensures IsGrouped(Group(d))
    decreases |d|
  {
    if |d| > 3 {
      var p := d[..|d| - 3];
      GroupIsGrouped(p);
      assert Group(d) == Group(p) + "." + d[|d| - 3..];
      GroupedAppend(Group(p), d[|d| - 3..]);
    }
  }

  /** The shape promised by formatCurrency: `R$ `, an optional minus, a
      grouped integer, a comma and two digits. */
  ghost predicate IsBrl(s: string) {
    exists sign, g, f :: s == "R$ " + sign + g + "," + f && Shape(sign, g, f)
  }

  predicate Shape(sign: string, g: string, f: string) {
    (sign == "" || sign == "-") && IsGrouped(g) && |f| == 2 && IsDigits(f)
  }

  lemma FormatIsBrl(x: real)
    ensures IsBrl(FormatCurrency(x))
  {
    var n := RoundedCents(x);
    var d := NatToString(n / 100);
    GroupIsGrouped(d);
    var sign := if x < 0.0 then "-" else "";
    assert Shape(sign, Group(d), TwoDigits(n % 100));
  }

  // ---------------------------------------------------------------------
  // Parsing
  // ---------------------------------------------------------------------

  /** `.replace(/R\$\s?/g, '')`: every `R$`, with one white-space character
      right after it, is deleted. */
  function StripSymbol(s: string): (r: string)
    ensures |r| <= |s|
    ensures |s| > 0 && s[0] != 'R' ==> |r| > 0 && r[0] == s[0]
  {
    if |s| >= 2 && s[0] == 'R' && s[1] == '$' then
      if |s| >= 3 && IsSpace(s[2]) then StripSymbol(s[3..]) else StripSymbol(s[2..])
    else if |s| == 0 then ""
    else [s[0]] + StripSymbol(s[1..])
  }

  /** `.replace(/\./g, '')`. */
  function RemoveDots(s: string): (r: string)
    ensures forall i :: 0 <= i < |r| ==> r[i] != '.'
    ensures |r| <= |s|
    ensures |s| > 0 && s[0] != '.' ==> |r| > 0 && r[0] == s[0]
  {
    if |s| == 0 then ""
    else if s[0] == '.' then RemoveDots(s[1..])
    else [s[0]] + RemoveDots(s[1..])
  }

  /** `.replace(',', '.')`: only the first comma becomes a point. */
  function CommaToPoint(s: string): (r: string)
    ensures |r| == |s|
    ensures forall i :: 0 <= i < |s| ==> r[i] == s[i] || (s[i] == ',' && r[i] == '.')
    ensures |s| > 0 && s[0] != ',' ==> r[0] == s[0]
  {
    if |s| == 0 then ""
    else if s[0] == ',' then "." + s[1..]
    else [s[0]] + CommaToPoint(s[1..])
  }

  /** The cleaning `parseCurrency` applies before `parseFloat`. */
  function Clean(s: string): string {
    CommaToPoint(RemoveDots(StripSymbol(s)))
  }

  /** parseCurrency: a number is returned unchanged; a falsy value reads as
      0; anything else is converted to text, stripped of `R$`, of every dot,
      has its first comma turned into a decimal point, and is read with
      `parseFloat`, NaN (and 0) falling back to 0. */
  function ParseCurrency(v: JsValue): (r: real)
    ensures v.Num? ==> r == v.n
    ensures !v.Num? && !Truthy(v) ==> r == 0.0
    ensures !v.Num? && ParseFloat(Clean(ToText(v))).None? ==> r == 0.0
  {
    if v.Num? then v.n
    else if !Truthy(v) then 0.0
    else
      match ParseFloat(Clean(ToText(v)))
      case None => 0.0
      case Some(r) => r
  }

  // ---------------------------------------------------------------------
  // The round trip
  // ---------------------------------------------------------------------

  lemma {:induction false} StripSymbolNoR(s: string)
    requires forall i :: 0 <= i < |s| ==> s[i] != 'R'
    ensures StripSymbol(s) == s
  {
    if |s| > 0 {
      StripSymbolNoR(s[1..]);
      assert [s[0]] + s[1..] == s;
    }
  }

  /** An `R$` goes, together with one white-space character right after it. */
  lemma StripSymbolDropsSymbol(t: string)
    ensures StripSymbol("R$" + t) == StripSymbol(if |t| > 0 && IsSpace(t[0]) then t[1..] else t)
  {
    var s := "R$" + t;
    assert s[2..] == t;
    if |t| > 0 {
      assert s[3..] == t[1..];
    }
  }

  /** The deletion works piece by piece wherever the pieces meet away from
      a symbol: together with StripSymbolNoR and StripSymbolDropsSymbol this
      deletes every `R$` of the text (the `g` flag), not only a leading one. */
  lemma {:induction false} StripSymbolAppend(a: string, b: string)
    requires |a| > 0 ==> a[|a| - 1] != 'R' && a[|a| - 1] != '$'
    ensures StripSymbol(a + b) == StripSymbol(a) + StripSymbol(b)
    decreases |a|
  {
    if |a| == 0 {
      assert a + b == b;
    } else if |a| >= 2 && a[0] == 'R' && a[1] == '$' {
      assert |a| >= 3;
      var k := if IsSpace(a[2]) then 3 else 2;
      var rest := a[k..];
      assert |rest| > 0 ==> rest[|rest| - 1] == a[|a| - 1];
      StripSymbolSkip(a, b, k);
      StripSymbolAppend(rest, b);
    } else {
      var rest := a[1..];
      assert |rest| > 0 ==> rest[|rest| - 1] == a[|a| - 1];
      StripSymbolKeep(a, b);
      StripSymbolAppend(rest, b);
      Assoc([a[0]], StripSymbol(rest), StripSymbol(b));
    }
  }

  /** One step of StripSymbolAppend on a leading `R$`, with `k` the length
      deleted. */
  lemma StripSymbolSkip(a: string, b: string, k: nat)
    requires |a| >= 3 && a[0] == 'R' && a[1] == '$'
    requires k == if IsSpace(a[2]) then 3 else 2
    ensures StripSymbol(a) == StripSymbol(a[k..])
    ensures StripSymbol(a + b) == StripSymbol(a[k..] + b)
  {
    assert (a + b)[k..] == a[k..] + b;
  }

  /** An `R` that does not start `R$` is kept, like every other character
      outside a symbol. */
  lemma StripSymbolKeepsLoneR(t: string)
    requires |t| > 0 ==> t[0] != '$'
    ensures StripSymbol("R" + t) == "R" + StripSymbol(t)
  {
    assert ("R" + t)[1..] == t;
  }

  /** One step of StripSymbolAppend on a leading character that is kept. */
  lemma StripSymbolKeep(a: string, b: string)
    requires |a| >= 1 && a[|a| - 1] != 'R'
    requires !(|a| >= 2 && a[0] == 'R' && a[1] == '$')
    ensures StripSymbol(a) == [a[0]] + StripSymbol(a[1..])
    ensures StripSymbol(a + b) == [a[0]] + StripSymbol(a[1..] + b)
  {
    assert (a + b)[1..] == a[1..] + b;
  }

  lemma {:induction false} RemoveDotsAppend(a: string, b: string)
    ensures RemoveDots(a + b) == RemoveDots(a) + RemoveDots(b)
  {
    if |a| == 0 {
      assert a + b == b;
    } else {
      assert (a + b)[1..] == a[1..] + b;
      RemoveDotsAppend(a[1..], b);
    }
  }

  lemma {:induction false} RemoveDotsNoDots(a: string)
    requires forall i :: 0 <= i < |a| ==> a[i] != '.'
    ensures RemoveDots(a) == a
  {
    if |a| > 0 {
      RemoveDotsNoDots(a[1..]);
      assert [a[0]] + a[1..] == a;
    }
  }

  /** Deleting the dots of a grouped integer gives back its digits. */
  lemma {:induction false} RemoveDotsOfGroup(d: string)
    requires IsDigits(d)
    ensures RemoveDots(Group(d)) == d
    decreases |d|
  {
    if |d| <= 3 {
      RemoveDotsNoDots(d);
    } else {
      var p := d[..|d| - 3];
      var q := d[|d| - 3..];
      var gp := Group(p);
      assert Group(d) == gp + "." + q;
      RemoveDotsOfGroup(p);
      RemoveDotsAppend(gp + ".", q);
      RemoveDotsAppend(gp, ".");
      assert RemoveDots(".") == "";
      assert RemoveDots(gp + ".") == p by {
        assert p + "" == p;
      }
      RemoveDotsNoDots(q);
      assert RemoveDots(Group(d)) == p + q;
      assert p + q == d;
    }
  }

  lemma {:induction false} CommaToPointFirst(a: string, b: string)
    requires forall i :: 0 <= i < |a| ==> a[i] != ','
    ensures CommaToPoint(a + "," + b) == a + "." + b
  {
    if |a| == 0 {
      assert a + "," + b == "," + b;
      assert ("," + b)[1..] == b;
    } else {
      assert (a + "," + b)[1..] == a[1..] + "," + b;
      CommaToPointFirst(a[1..], b);
      assert [a[0]] + (a[1..] + "." + b) == a + "." + b;
    }
  }

  lemma {:induction false} StripSymbolNoDigits(s: string)
    requires NoDigits(s)
    ensures NoDigits(StripSymbol(s))
  {
    if |s| >= 2 && s[0] == 'R' && s[1] == '$' {
      if |s| >= 3 && IsSpace(s[2]) {
        assert forall i :: 0 <= i < |s| - 3 ==> s[3..][i] == s[i + 3];
        StripSymbolNoDigits(s[3..]);
      } else {
        assert forall i :: 0 <= i < |s| - 2 ==> s[2..][i] == s[i + 2];
        StripSymbolNoDigits(s[2..]);
      }
    } else if |s| > 0 {
      assert forall i :: 0 <= i < |s| - 1 ==> s[1..][i] == s[i + 1];
      StripSymbolNoDigits(s[1..]);
      var r := StripSymbol(s[1..]);
      assert forall i :: 1 <= i < |r| + 1 ==> ([s[0]] + r)[i] == r[i - 1];
    }
  }

  lemma {:induction false} RemoveDotsNoDigits(s: string)
    requires NoDigits(s)
    ensures NoDigits(RemoveDots(s))
  {
    if |s| > 0 {
      assert forall i :: 0 <= i < |s| - 1 ==> s[1..][i] == s[i + 1];
      RemoveDotsNoDigits(s[1..]);
      var r := RemoveDots(s[1..]);
      assert forall i :: 1 <= i < |r| + 1 ==> ([s[0]] + r)[i] == r[i - 1];
    }
  }

  lemma {:induction false} CommaToPointNoDigits(s: string)
    requires NoDigits(s)
    ensures NoDigits(CommaToPoint(s))
  {
    if |s| > 0 {
      assert forall i :: 0 <= i < |s| - 1 ==> s[1..][i] == s[i + 1];
      if s[0] != ',' {
        CommaToPointNoDigits(s[1..]);
        var r := CommaToPoint(s[1..]);
        assert forall i :: 1 <= i < |r| + 1 ==> ([s[0]] + r)[i] == r[i - 1];
      }
    }
  }

  /** Text without a digit reads as 0: the cleaning adds no digit and
      `parseFloat` finds none. */
  lemma UnparseableIsZero(s: string)
    requires NoDigits(s)
    ensures ParseCurrency(Str(s)) == 0.0
  {
    StripSymbolNoDigits(s);
    RemoveDotsNoDigits(StripSymbol(s));
    CommaToPointNoDigits(RemoveDots(StripSymbol(s)));
  }

  /** Text that starts with a letter (other than the `R` of `R$` and the `I`
      of `Infinity`) reads as 0, whatever digits follow: `parseFloat` stops
      at the first character. */
  lemma LeadingLetterIsZero(s: string)
    requires |s| > 0 && !IsSpace(s[0]) && !IsDigit(s[0])
    requires s[0] != 'R' && s[0] != 'I' && s[0] != '.' && s[0] != ',' && s[0] != '+' && s[0] != '-'
    ensures ParseCurrency(Str(s)) == 0.0
  {
    var e := CommaToPoint(RemoveDots(StripSymbol(s)));
    assert e[0] == s[0];
    ParseFloatLeadingJunk(e);
  }

  /** The integer part of a typed amount: digits with dots anywhere. */
  predicate DigitsAndDots(g: string) {
    forall i :: 0 <= i < |g| ==> IsDigit(g[i]) || g[i] == '.'
  }

  lemma {:induction false} RemoveDotsDigits(g: string)
    requires DigitsAndDots(g)
    ensures IsDigits(RemoveDots(g))
  {
    if |g| > 0 {
      assert forall i :: 0 <= i < |g| - 1 ==> g[1..][i] == g[i + 1];
      RemoveDotsDigits(g[1..]);
      var r := RemoveDots(g[1..]);
      assert forall i :: 1 <= i < |r| + 1 ==> ([g[0]] + r)[i] == r[i - 1];
    }
  }

  /** The prefixes an amount may be typed with: none, `R$` or `R$ `. */
  predicate AmountPrefix(p: string) {
    p == "" || p == "R$" || p == "R$ "
  }

  lemma StripAmountPrefix(p: string, rest: string)
    requires AmountPrefix(p)
    requires forall i :: 0 <= i < |rest| ==> rest[i] != 'R'
    requires p == "R$" && |rest| > 0 ==> !IsSpace(rest[0])
    ensures StripSymbol(p + rest) == rest
  {
    StripSymbolNoR(rest);
    if p == "R$ " {
      assert (p + rest)[3..] == rest;
    } else if p == "R$" {
      assert (p + rest)[2..] == rest;
    } else {
      assert p + rest == rest;
    }
  }

  lemma {:induction false} NoRInAmount(sign: string, g: string, t: string)
    requires (sign == "" || sign == "-") && DigitsAndDots(g)
    requires forall i :: 0 <= i < |t| ==> t[i] == ',' || IsDigit(t[i])
    ensures forall i :: 0 <= i < |sign + g + t| ==> (sign + g + t)[i] != 'R'
  {
    var rest := sign + g + t;
    forall i | 0 <= i < |rest|
      ensures rest[i] != 'R'
    {
      if i < |sign| {
      } else if i < |sign| + |g| {
        assert rest[i] == g[i - |sign|];
      } else {
        assert rest[i] == t[i - |sign| - |g|];
      }
    }
  }

  lemma RemoveDotsAmount(sign: string, g: string, t: string)
    requires sign == "" || sign == "-"
    requires forall i :: 0 <= i < |t| ==> t[i] != '.'
    ensures RemoveDots(sign + g + t) == sign + RemoveDots(g) + t
  {
    RemoveDotsAppend(sign + g, t);
    RemoveDotsAppend(sign, g);
    RemoveDotsNoDots(sign);
    RemoveDotsNoDots(t);
  }

  lemma NoCommaInSignedDigits(sign: string, d: string)
    requires (sign == "" || sign == "-") && IsDigits(d)
    ensures forall i :: 0 <= i < |sign + d| ==> (sign + d)[i] != ','
  {
    var a := sign + d;
    forall i | 0 <= i < |a|
      ensures a[i] != ','
    {
      if i >= |sign| { assert a[i] == d[i - |sign|]; }
    }
  }

  lemma CommaAmount(sign: string, d: string, fp: string, comma: bool)
    requires (sign == "" || sign == "-") && IsDigits(d)
    ensures CommaToPoint(sign + d + (if comma then "," + fp else ""))
         == sign + d + (if comma then "." + fp else "")
  {
    var a := sign + d;
    NoCommaInSignedDigits(sign, d);
    if comma {
      CommaToPointFirst(a, fp);
      Assoc(a, ",", fp);
      Assoc(a, ".", fp);
    } else {
      assert a + "" == a;
    }
  }

  lemma Assoc(x: string, y: string, z: string)
    ensures x + (y + z) == x + y + z
  {
  }

  lemma Regroup(p: string, a: string, b: string, c: string)
    ensures p + a + b + c == p + (a + b + c)
  {
    var l := p + a + b + c;
    var r := p + (a + b + c);
    assert |l| == |r|;
    forall i | 0 <= i < |l|
      ensures l[i] == r[i]
    {
      if i < |p| {
      } else if i < |p| + |a| {
      } else if i < |p| + |a| + |b| {
      } else {
      }
    }
  }

  /** Cleaning `[R$[ ]][-]g` and `[R$[ ]][-]g,f` for digits-and-dots `g` and
      digits `f`: the prefix and the dots go, the comma becomes a point. */
  lemma CleanAmount(p: string, sign: string, g: string, fp: string, comma: bool)
    requires AmountPrefix(p) && (sign == "" || sign == "-") && DigitsAndDots(g) && IsDigits(fp)
    requires |RemoveDots(g)| >= 1
    ensures IsDigits(RemoveDots(g))
    ensures Clean(p + sign + g + (if comma then "," + fp else ""))
         == sign + RemoveDots(g) + (if comma then "." + fp else "")
  {
    var t := if comma then "," + fp else "";
    RemoveDotsDigits(g);
    assert forall i :: 0 <= i < |t| ==> t[i] == ',' || IsDigit(t[i]) by {
      if comma {
        forall i | 1 <= i < |t|
          ensures IsDigit(t[i])
        {
          assert t[i] == fp[i - 1];
        }
      }
    }
    NoRInAmount(sign, g, t);
    var rest := sign + g + t;
    assert p == "R$" ==> !IsSpace(rest[0]) by {
      if sign == "" { assert rest[0] == g[0]; }
    }
    StripAmountPrefix(p, rest);
    Regroup(p, sign, g, t);
    RemoveDotsAmount(sign, g, t);
    CommaAmount(sign, RemoveDots(g), fp, comma);
  }

  lemma CleanWholeAmount(p: string, sign: string, g: string)
    requires AmountPrefix(p) && (sign == "" || sign == "-") && DigitsAndDots(g)
    requires |RemoveDots(g)| >= 1
    ensures Clean(p + sign + g) == sign + RemoveDots(g)
  {
    CleanAmount(p, sign, g, "", false);
    assert p + sign + g + "" == p + sign + g;
    assert sign + RemoveDots(g) + "" == sign + RemoveDots(g);
  }

  lemma ParseSignedInteger(sign: string, d: string)
    requires (sign == "" || sign == "-") && IsDigits(d) && |d| >= 1
    ensures var v := DigitsValue(d) as real;
            ParseFloat(sign + d) == Some(if sign == "-" then -v else v)
  {
    assert sign == (if sign == "-" then "-" else "");
    ParseFloatInteger(sign == "-", d);
  }

  lemma ParseSignedDecimal(sign: string, d: string, fp: string)
    requires (sign == "" || sign == "-") && IsDigits(d) && |d| >= 1 && IsDigits(fp) && |fp| >= 1
    ensures var v := DecimalValue(d, fp);
            ParseFloat(sign + d + "." + fp) == Some(if sign == "-" then -v else v)
  {
    assert sign == (if sign == "-" then "-" else "");
    ParseFloatDecimal(sign == "-", d, fp);
  }

  lemma CleanDecimalAmount(p: string, sign: string, g: string, fp: string)
    requires AmountPrefix(p) && (sign == "" || sign == "-") && DigitsAndDots(g) && IsDigits(fp)
    requires |RemoveDots(g)| >= 1
    ensures Clean(p + sign + g + "," + fp) == sign + RemoveDots(g) + "." + fp
  {
    CleanAmount(p, sign, g, fp, true);
    Assoc(p + sign + g, ",", fp);
    Assoc(sign + RemoveDots(g), ".", fp);
  }

  lemma ReadsSignedInteger(s: string, sign: string, d: string)
    requires (sign == "" || sign == "-") && IsDigits(d) && |d| >= 1
    requires s != "" && Clean(s) == sign + d
    ensures var v := DigitsValue(d) as real;
            ParseCurrency(Str(s)) == if sign == "-" then -v else v
  {
    ParseSignedInteger(sign, d);
  }

  lemma ReadsSignedDecimal(s: string, sign: string, d: string, fp: string)
    requires (sign == "" || sign == "-") && IsDigits(d) && |d| >= 1 && IsDigits(fp) && |fp| >= 1
    requires s != "" && Clean(s) == sign + d + "." + fp
    ensures var v := DecimalValue(d, fp);
            ParseCurrency(Str(s)) == if sign == "-" then -v else v
  {
    ParseSignedDecimal(sign, d, fp);
  }

  /** A typed whole amount such as `R$ 1.234` or `-1234` reads as its digits'
      value, with the dots ignored wherever they stand. */
  lemma ReadsWholeAmount(p: string, sign: string, g: string)
    requires AmountPrefix(p) && (sign == "" || sign == "-") && DigitsAndDots(g)
    requires |RemoveDots(g)| >= 1
    ensures IsDigits(RemoveDots(g))
    ensures var v := DigitsValue(RemoveDots(g)) as real;
            ParseCurrency(Str(p + sign + g)) == if sign == "-" then -v else v
  {
    RemoveDotsDigits(g);
    CleanWholeAmount(p, sign, g);
    ReadsSignedInteger(p + sign + g, sign, RemoveDots(g));
  }

  /** A typed amount with a decimal comma, such as `R$ 1.234,5` or `12,50`,
      reads as the decimal number it denotes. */
  lemma ReadsDecimalAmount(p: string, sign: string, g: string, fp: string)
    requires AmountPrefix(p) && (sign == "" || sign == "-") && DigitsAndDots(g)
    requires |RemoveDots(g)| >= 1 && |fp| >= 1 && IsDigits(fp)
    ensures IsDigits(RemoveDots(g))
    ensures var v := DecimalValue(RemoveDots(g), fp);
            ParseCurrency(Str(p + sign + g + "," + fp)) == if sign == "-" then -v else v
  {
    RemoveDotsDigits(g);
    CleanDecimalAmount(p, sign, g, fp);
    ReadsSignedDecimal(p + sign + g + "," + fp, sign, RemoveDots(g), fp);
  }

  lemma StripFormatted(sign: string, g: string, f: string)
    requires Shape(sign, g, f)
    ensures StripSymbol("R$ " + sign + g + "," + f) == sign + g + "," + f
  {
    var rest := sign + g + "," + f;
    forall i | 0 <= i < |rest|
      ensures rest[i] != 'R'
    {
      if i < |sign| {
      } else if i < |sign| + |g| {
        assert rest[i] == g[i - |sign|];
      } else if i > |sign| + |g| {
        assert rest[i] == f[i - |sign| - |g| - 1];
      }
    }
    assert "R$ " + sign + g + "," + f == "R$ " + rest;
    assert ("R$ " + rest)[3..] == rest;
    StripSymbolNoR(rest);
  }

  lemma RemoveDotsFormatted(sign: string, d: string, f: string)
    requires (sign == "" || sign == "-") && IsDigits(d) && IsDigits(f)
    ensures RemoveDots(sign + Group(d) + "," + f) == sign + d + "," + f
  {
    var g := Group(d);
    RemoveDotsAppend(sign + g + ",", f);
    RemoveDotsAppend(sign + g, ",");
    RemoveDotsAppend(sign, g);
    RemoveDotsOfGroup(d);
    RemoveDotsNoDots(sign);
    RemoveDotsNoDots(",");
    RemoveDotsNoDots(f);
  }

  lemma CommaFormatted(sign: string, d: string, f: string)
    requires (sign == "" || sign == "-") && IsDigits(d)
    ensures CommaToPoint(sign + d + "," + f) == sign + d + "." + f
  {
    var a := sign + d;
    forall i | 0 <= i < |a|
      ensures a[i] != ','
    {
      if i >= |sign| {
        assert a[i] == d[i - |sign|];
      }
    }
    CommaToPointFirst(a, f);
  }

  /** What the cleaning steps of parseCurrency leave of formatCurrency's output. */
  lemma CleanFormatted(x: real)
    ensures var n := RoundedCents(x);
            var sign := if x < 0.0 then "-" else "";
            CommaToPoint(RemoveDots(StripSymbol(FormatCurrency(x))))
              == sign + NatToString(n / 100) + "." + TwoDigits(n % 100)
  {
    var n := RoundedCents(x);
    var sign := if x < 0.0 then "-" else "";
    var d := NatToString(n / 100);
    var f := TwoDigits(n % 100);
    GroupIsGrouped(d);
    StripFormatted(sign, Group(d), f);
    RemoveDotsFormatted(sign, d, f);
    CommaFormatted(sign, d, f);
  }

  /** Reading formatCurrency's output back yields the value rounded to cents. */
  lemma ParseFormat(x: real)
    ensures ParseCurrency(Str(FormatCurrency(x))) == CentsOf(x) as real / 100.0
  {
    var n := RoundedCents(x);
    var d := NatToString(n / 100);
    var f := TwoDigits(n % 100);
    CleanFormatted(x);
    ParseFloatDecimal(x < 0.0, d, f);
    CentsDigits(n);
  }

  /** The digits formatCurrency prints for n cents, read as a decimal, are n / 100. */
  lemma CentsDigits(n: nat)
    ensures DecimalValue(NatToString(n / 100), TwoDigits(n % 100)) == n as real / 100.0
  {
    var d := NatToString(n / 100);
    var f := TwoDigits(n % 100);
    DigitsValueAppend(d, f);
    assert Pow10(2) == 100 by {
      assert Pow10(1) == 10;
    }
    assert n == (n / 100) * 100 + n % 100;
    assert DigitsValue(d + f) == n;
  }

  /** A whole number of cents is its own rounding. */
  lemma CentsOfCents(c: int)
    ensures CentsOf(c as real / 100.0) == c
  {
    var x := c as real / 100.0;
    var a := if c < 0 then -c else c;
    assert Abs(x) * 100.0 + 0.5 == a as real + 0.5;
    assert RoundedCents(x) == a;
  }

  /** For every amount of whole cents c, parseCurrency(formatCurrency(c)) == c. */
  lemma CentsRoundTrip(c: int)
    ensures ParseCurrency(Str(FormatCurrency(c as real / 100.0))) == c as real / 100.0
  {
    ParseFormat(c as real / 100.0);
    CentsOfCents(c);
  }


  /** Re-formatting a parsed formatted amount reproduces the text, except for
      a negative amount that rounds to zero cents (`R$ -0,00` reads as 0). */
  lemma FormatParseFormat(x: real)
    requires x >= 0.0 || RoundedCents(x) > 0
    ensures FormatCurrency(ParseCurrency(Str(FormatCurrency(x)))) == FormatCurrency(x)
  {
    ParseFormat(x);
    ReadCentsKeepRounding(x);
    SameCentsSameText(CentsOf(x) as real / 100.0, x);
  }

  /** The amount read back rounds to the same cents, with the same sign
      unless a negative amount rounded to zero cents. */
  lemma ReadCentsKeepRounding(x: real)
    requires x >= 0.0 || RoundedCents(x) > 0
    ensures var y := CentsOf(x) as real / 100.0;
            RoundedCents(y) == RoundedCents(x) && (y < 0.0 <==> x < 0.0)
  {
    var y := CentsOf(x) as real / 100.0;
    var a := RoundedCents(x);
    assert Abs(y) * 100.0 + 0.5 == a as real + 0.5;
  }

  /** The text depends only on the rounded cents and the sign. */
  lemma SameCentsSameText(x: real, y: real)
    requires RoundedCents(x) == RoundedCents(y) && (x < 0.0 <==> y < 0.0)
    ensures FormatCurrency(x) == FormatCurrency(y)
  {
  }

  /** The text always starts with `R$ `, followed by `-` exactly for a
      negative value. */
  lemma FormatSign(x: real)
    ensures |FormatCurrency(x)| > 3 && FormatCurrency(x)[..3] == "R$ "
    ensures FormatCurrency(x)[3] == '-' <==> x < 0.0
  {
    var n := RoundedCents(x);
    var g := Group(NatToString(n / 100));
    GroupIsGrouped(NatToString(n / 100));
    if x >= 0.0 {
      assert FormatCurrency(x)[3] == g[0];
    }
  }

  /** A negative amount above -0.005 is printed as `R$ -0,00`, which reads
      back as 0, so the exception in FormatParseFormat is needed. */
  lemma NegativeZeroCents(x: real)
    requires -0.005 < x < 0.0
    ensures ParseCurrency(Str(FormatCurrency(x))) == 0.0
    ensures FormatCurrency(ParseCurrency(Str(FormatCurrency(x)))) != FormatCurrency(x)
  {
    assert RoundedCents(x) == 0;
    ParseFormat(x);
    FormatSign(x);
    FormatSign(0.0);
  }

  /** Zero is printed as `R$ 0,00`, and that text reads back as 0. */
  lemma ZeroAmount()
    ensures FormatCurrency(0.0) == "R$ 0,00"
    ensures ParseCurrency(Str("R$ 0,00")) == 0.0
  {
    var z := 0.0;
    ZeroAmountAt(z);
  }

  lemma FormatZero(z: real)
    requires z == 0.0
    ensures FormatCurrency(z) == "R$ 0,00"
  {
    assert RoundedCents(z) == 0;
    assert NatToString(0) == "0";
    assert Group("0") == "0";
    assert TwoDigits(0) == "00";
  }

  lemma ZeroAmountAt(z: real)
    requires z == 0.0
    ensures FormatCurrency(z) == "R$ 0,00"
    ensures ParseCurrency(Str(FormatCurrency(z))) == 0.0
  {
    FormatZero(z);
    ParseFormat(z);
    assert CentsOf(z) == 0;
  }
}

=== FILE: dates.dfy ===
/**
 The calendar arithmetic the month navigation relies on: proleptic Gregorian
 dates as (year, month index 0..11, day), JavaScript's `Date.setMonth` with
 its day overflow, `new Date(y, m, 1)`, and `changeMonth` of
 public/script.js both as written and with the overflow removed.
 */
module Dates {

  datatype CalDate = CalDate(year: int, month: int, day: int)

  predicate IsLeap(y: int) {
    y % 4 == 0 && (y % 100 != 0 || y % 400 == 0)
  }

  function DaysInMonth(y: int, m: int): (n: int)
    requires 0 <= m < 12
    ensures 28 <= n <= 31
  {
    if m == 1 then (if IsLeap(y) then 29 else 28)
    else if m == 3 || m == 5 || m == 8 || m == 10 then 30
    else 31
  }

  predicate Valid(d: CalDate) {
    0 <= d.month < 12 && 1 <= d.day <= DaysInMonth(d.year, d.month)
  }

  /** The number of months since January of year 0: two dates share a month
      exactly when their indices agree. */
  function MonthIndex(d: CalDate): int {
    d.year * 12 + d.month
  }

  /** The (year, month) pair a possibly out-of-range month index of `year`
      denotes, as the MakeDay operation of ECMAScript computes it. */
  function YearOf(year: int, month: int): int {
    year + month / 12
  }

  function MonthOf(month: int): (m: int)
    ensures 0 <= m < 12
  {
    month % 12
  }

  lemma MonthSplit(year: int, month: int)
    ensures YearOf(year, month) * 12 + MonthOf(month) == year * 12 + month
  {
  }

  /** Day `day` of month `m` of `y`, where a day past the end of the month
      runs on into the following months. */
  function Overflow(y: int, m: int, day: int): (r: CalDate)
    requires 0 <= m < 12 && day >= 1
    ensures Valid(r) && r.day <= day
    ensures day <= DaysInMonth(y, m) <==> r == CalDate(y, m, day)
    ensures day <= DaysInMonth(y, m) + 28 ==> MonthIndex(r) <= y * 12 + m + 1
    ensures MonthIndex(r) >= y * 12 + m
    ensures DaysInMonth(y, m) < day <= DaysInMonth(y, m) + 28 ==>
              r == CalDate(YearOf(y, m + 1), MonthOf(m + 1), day - DaysInMonth(y, m))
    decreases day
  {
    if day <= DaysInMonth(y, m) then CalDate(y, m, day)
    else if m == 11 then Overflow(y + 1, 0, day - DaysInMonth(y, m))
    else Overflow(y, m + 1, day - DaysInMonth(y, m))
  }

  /** `date.setMonth(month)`: the day of the month is kept and may overflow. */
  function SetMonth(date: CalDate, month: int): (r: CalDate)
    requires Valid(date)
    ensures Valid(r)
    ensures date.day <= 28 ==> r == CalDate(YearOf(date.year, month), MonthOf(month), date.day)
    ensures var n := DaysInMonth(YearOf(date.year, month), MonthOf(month));
            && (date.day <= n ==> r == CalDate(YearOf(date.year, month), MonthOf(month), date.day))
            && (date.day > n ==> MonthIndex(r) == date.year * 12 + month + 1 && r.day == date.day - n)
  {
    MonthSplit(date.year, month);
    MonthSplit(YearOf(date.year, month), MonthOf(month) + 1);
    Overflow(YearOf(date.year, month), MonthOf(month), date.day)
  }

  /** `changeMonth(direction)` as written (public/script.js:371-374). */
  function ChangeMonthAsWritten(date: CalDate, direction: int): (r: CalDate)
    requires Valid(date)
    ensures Valid(r)
    ensures var n := DaysInMonth(YearOf(date.year, date.month + direction), MonthOf(date.month + direction));
            && (date.day <= n ==> MonthIndex(r) == MonthIndex(date) + direction && r.day == date.day)
            && (date.day > n ==> MonthIndex(r) == MonthIndex(date) + direction + 1 && r.day == date.day - n)
  {
    SetMonth(date, date.month + direction)
  }

  /** When the day exists in every month, the as-written navigation moves by
      exactly `direction` months and keeps the day. */
  lemma ChangeMonthAsWrittenShortDay(date: CalDate, direction: int)
    requires Valid(date) && date.day <= 28
    ensures MonthIndex(ChangeMonthAsWritten(date, direction)) == MonthIndex(date) + direction
    ensures ChangeMonthAsWritten(date, direction).day == date.day
  {
    MonthSplit(date.year, date.month + direction);
  }

  /** From 31 January 2025, "next month" lands on 3 March 2025. */
  lemma ChangeMonthSkipsFebruary()
    ensures ChangeMonthAsWritten(CalDate(2025, 0, 31), 1) == CalDate(2025, 2, 3)
    ensures MonthIndex(ChangeMonthAsWritten(CalDate(2025, 0, 31), 1)) == MonthIndex(CalDate(2025, 0, 31)) + 2
  {
    assert !IsLeap(2025);
    assert DaysInMonth(2025, 1) == 28;
    assert Overflow(2025, 2, 3) == CalDate(2025, 2, 3);
  }

  /** Forward then back does not return to January either. */
  lemma ChangeMonthNoRoundTrip()
    ensures var there := ChangeMonthAsWritten(CalDate(2025, 0, 31), 1);
            ChangeMonthAsWritten(there, -1) == CalDate(2025, 1, 3)
  {
    ChangeMonthSkipsFebruary();
    assert SetMonth(CalDate(2025, 2, 3), 1) == CalDate(2025, 1, 3);
  }

  /** `changeMonth` with the overflow removed: the date is moved to day 1
      before its month changes, as `currentMonth` only stands for a month. */
  function ChangeMonth(date: CalDate, direction: int): (r: CalDate)
    requires Valid(date)
    ensures Valid(r) && r.day == 1
    ensures MonthIndex(r) == MonthIndex(date) + direction
  {
    MonthSplit(date.year, date.month + direction);
    SetMonth(date.(day := 1), date.month + direction)
  }

  /** Moving forward and then back returns to the month started from. */
  lemma ChangeMonthRoundTrip(date: CalDate, direction: int)
    requires Valid(date)
    ensures MonthIndex(ChangeMonth(ChangeMonth(date, direction), -direction)) == MonthIndex(date)
    ensures date.day == 1 ==> ChangeMonth(ChangeMonth(date, direction), -direction) == date
  {
  }

  /** `new Date(year, month, 1)`: years 0 to 99 mean 1900 to 1999, and a month
      index outside 0..11 is carried into the year. */
  function FirstOfMonth(year: int, month: int): (r: CalDate)
    ensures Valid(r) && r.day == 1
    ensures MonthIndex(r) == (if 0 <= year <= 99 then 1900 + year else year) * 12 + month
  {
    var y := if 0 <= year <= 99 then 1900 + year else year;
    MonthSplit(y, month);
    CalDate(YearOf(y, month), MonthOf(month), 1)
  }
}

=== FILE: item_form.dfy ===
/**
 The line-item table of the order form in public/script.js: adding and
 removing rows, renumbering, line totals, the order total, loading the items
 of an order for editing, and the item payload sent on save.
 */
module ItemForm {
  import opened Js
  import opened Text
  import opened Currency
  import opened Orders

  /** One table row: the number shown in its first cell and its inputs.
      `qtd` and `valor` stand for what the `type="number"` inputs report as
      their value (public/script.js:706, 712): a number assigned on loading is
      kept as that number, which the input reports back as its own text, and
      typed text is what the browser reports, which is `""` for anything that
      is not a valid floating-point number. */
  datatype Row = Row(
    itemNo: int,
    especificacao: string,
    qtd: JsValue,
    unid: string,
    valor: JsValue,
    ipi: string,
    st: string,
    total: string)

  /** The rows, `itemCounter`, and the value of the order-total input. */
  datatype Form = Form(rows: seq<Row>, counter: int, orderTotal: JsValue)

  /** `parseFloat(input.value) || 0` for a number input, applied to the value
      the input reports. A number reads back as itself; text that does not
      start a number, the empty report included, reads as 0. */
  function ReadNumber(v: JsValue): (x: real)
    ensures v.Num? ==> x == v.n
    ensures v.Undefined? || v.Null? || v.Bool? ==> x == 0.0
    ensures v.Str? && NoDigits(v.s) ==> x == 0.0
  {
    match v
    case Num(n) => n
    case Str(s) => (match ParseFloat(s) case Some(r) => r case None => 0.0)
    case Composite(t) => (match ParseFloat(t) case Some(r) => r case None => 0.0)
    case _ => 0.0
  }

  /** Reported text of the common shapes, an optional minus and digits with
      or without a decimal point and digits, reads as its value. (A number
      input also accepts forms such as `.5` and exponents, not stated here.) */
  lemma ReadTypedNumber(neg: bool, ip: string, fp: string)
    requires IsDigits(ip) && IsDigits(fp) && |ip| >= 1
    ensures var sign := if neg then "-" else "";
            var w := DigitsValue(ip) as real;
            ReadNumber(Str(sign + ip)) == (if neg then -w else w)
    ensures var sign := if neg then "-" else "";
            |fp| >= 1 ==> ReadNumber(Str(sign + ip + "." + fp)) == (if neg then -DecimalValue(ip, fp) else DecimalValue(ip, fp))
  {
    ParseFloatInteger(neg, ip);
    if |fp| >= 1 {
      ParseFloatDecimal(neg, ip, fp);
    }
  }

  // ---------------------------------------------------------------------
  // Totals
  // ---------------------------------------------------------------------

  /** calculateItemTotal's product. */
  function LineValue(r: Row): real {
    ReadNumber(r.qtd) * ReadNumber(r.valor)
  }

  /** The line totals read back with parseCurrency and added up. */
  function SumTotals(rows: seq<Row>): real {
    if |rows| == 0 then 0.0
    else SumTotals(rows[..|rows| - 1]) + ParseCurrency(Str(rows[|rows| - 1].total))
  }

  /** recalculateOrderTotal's text. */
  function OrderTotal(rows: seq<Row>): (t: string)
    ensures |rows| == 0 ==> t == "R$ 0,00"
  {
    ZeroAmount();
    FormatCurrency(SumTotals(rows))
  }

  /** The sum of whole-cent amounts, each given as the cents formatCurrency
      prints for it. */
  function SumCents(xs: seq<real>): int {
    if |xs| == 0 then 0 else SumCents(xs[..|xs| - 1]) + CentsOf(xs[|xs| - 1])
  }

  /** When every line total is formatCurrency of some amount, the order total
      is the sum of those amounts rounded line by line to cents: re-reading
      the formatted lines loses nothing further. */
  lemma {:induction false} SumOfFormattedLines(rows: seq<Row>, xs: seq<real>)
    requires |rows| == |xs|
    requires forall i :: 0 <= i < |rows| ==> rows[i].total == FormatCurrency(xs[i])
    ensures SumTotals(rows) == SumCents(xs) as real / 100.0
  {
    if |rows| > 0 {
      SumOfFormattedLines(rows[..|rows| - 1], xs[..|xs| - 1]);
      ParseFormat(xs[|xs| - 1]);
    }
  }

  // ---------------------------------------------------------------------
  // Rows
  // ---------------------------------------------------------------------

  /** The rows are numbered 1..N in order and `itemCounter` is N. */
  predicate Numbered(f: Form) {
    f.counter == |f.rows| && forall i :: 0 <= i < |f.rows| ==> f.rows[i].itemNo == i + 1
  }

  /** The order-total input shows the total of the rows. */
  predicate TotalShown(f: Form) {
    f.orderTotal == Str(OrderTotal(f.rows))
  }

  /** renumberItems: the rows keep their contents and are labelled 1..N. */
  function Renumber(f: Form): (r: Form)
    ensures Numbered(r) && r.orderTotal == f.orderTotal
    ensures |r.rows| == |f.rows|
    ensures forall i :: 0 <= i < |f.rows| ==> r.rows[i] == f.rows[i].(itemNo := i + 1)
  {
    Form(seq(|f.rows|, i requires 0 <= i < |f.rows| => f.rows[i].(itemNo := i + 1)), |f.rows|, f.orderTotal)
  }

  /** The row addItem appends. */
  function NewRow(itemNo: int): Row {
    Row(itemNo, "", Str("1"), "UN", Str("0"), "", "", "R$ 0,00")
  }

  /** addItem: counts the new row and labels it with the counter; the order
      total is not recalculated. */
  function AddItem(f: Form): (r: Form)
    ensures r.rows == f.rows + [NewRow(f.counter + 1)] && r.counter == f.counter + 1
    ensures r.orderTotal == f.orderTotal
  {
    Form(f.rows + [NewRow(f.counter + 1)], f.counter + 1, f.orderTotal)
  }

  /** A row showing `R$ 0,00` adds nothing to the order total. */
  lemma AppendZeroRow(rows: seq<Row>, itemNo: int)
    ensures SumTotals(rows + [NewRow(itemNo)]) == SumTotals(rows)
  {
    var r := rows + [NewRow(itemNo)];
    assert r[..|r| - 1] == rows;
    ZeroAmount();
  }

  /** addItem keeps a numbered table numbered, and the new row's `R$ 0,00`
      leaves the order total right. */
  lemma AddItemKeepsInvariant(f: Form)
    requires Numbered(f) && TotalShown(f)
    ensures Numbered(AddItem(f)) && TotalShown(AddItem(f))
  {
    var g := AddItem(f);
    forall i | 0 <= i < |g.rows|
      ensures g.rows[i].itemNo == i + 1
    {
      if i < |f.rows| {
        assert g.rows[i] == f.rows[i];
      }
    }
    AddItemKeepsTotal(f);
  }

  lemma SameSumSameTotal(a: seq<Row>, b: seq<Row>)
    requires SumTotals(a) == SumTotals(b)
    ensures OrderTotal(a) == OrderTotal(b)
  {
  }

  lemma AddItemKeepsTotal(f: Form)
    requires TotalShown(f)
    ensures TotalShown(AddItem(f))
  {
    var rows := f.rows + [NewRow(f.counter + 1)];
    AppendZeroRow(f.rows, f.counter + 1);
    SameSumSameTotal(rows, f.rows);
  }

  /** removeItem: the row goes, the order total is recalculated, and the
      rows are renumbered. */
  function RemoveItem(f: Form, i: int): (r: Form)
    requires 0 <= i < |f.rows|
    ensures Numbered(r) && TotalShown(r)
    ensures |r.rows| == |f.rows| - 1
    ensures forall j :: 0 <= j < i ==> r.rows[j] == f.rows[j].(itemNo := j + 1)
    ensures forall j :: i <= j < |r.rows| ==> r.rows[j] == f.rows[j + 1].(itemNo := j + 1)
  {
    var rows := f.rows[..i] + f.rows[i + 1..];
    assert forall j :: 0 <= j < i ==> rows[j] == f.rows[j];
    assert forall j :: i <= j < |rows| ==> rows[j] == f.rows[j + 1];
    var r := Renumber(Form(rows, f.counter, Str(OrderTotal(rows))));
    RenumberKeepsTotal(rows);
    r
  }

  lemma {:induction false} SumTotalsIgnoresLabels(a: seq<Row>, b: seq<Row>)
    requires |a| == |b|
    requires forall i :: 0 <= i < |a| ==> a[i].total == b[i].total
    ensures SumTotals(a) == SumTotals(b)
  {
    if |a| > 0 {
      SumTotalsIgnoresLabels(a[..|a| - 1], b[..|b| - 1]);
    }
  }

  lemma RenumberKeepsTotal(rows: seq<Row>)
    ensures OrderTotal(Renumber(Form(rows, 0, Null)).rows) == OrderTotal(rows)
  {
    SumTotalsIgnoresLabels(Renumber(Form(rows, 0, Null)).rows, rows);
  }

  /** Removing the only row of a one-row table leaves `R$ 0,00`. */
  lemma RemoveLastRow(f: Form)
    requires |f.rows| == 1
    ensures RemoveItem(f, 0).rows == [] && RemoveItem(f, 0).orderTotal == Str("R$ 0,00")
  {
  }

  /** calculateItemTotal: the row's total becomes formatCurrency of quantity
      times price, and the order total follows. */
  function CalculateItemTotal(f: Form, i: int): (r: Form)
    requires 0 <= i < |f.rows|
    ensures TotalShown(r) && r.counter == f.counter
    ensures |r.rows| == |f.rows|
    ensures r.rows[i] == f.rows[i].(total := FormatCurrency(LineValue(f.rows[i])))
    ensures forall j :: 0 <= j < |f.rows| && j != i ==> r.rows[j] == f.rows[j]
  {
    var rows := f.rows[i := f.rows[i].(total := FormatCurrency(LineValue(f.rows[i])))];
    Form(rows, f.counter, Str(OrderTotal(rows)))
  }

  /** The quantity input's `onchange`; `text` is the value the input
      reports, so text the browser rejects arrives here as `""`. */
  function SetQuantity(f: Form, i: int, text: string): (r: Form)
    requires 0 <= i < |f.rows|
    ensures TotalShown(r) && |r.rows| == |f.rows|
    ensures var edited := f.rows[i].(qtd := Str(text));
            r.rows[i] == edited.(total := FormatCurrency(LineValue(edited)))
    ensures forall j :: 0 <= j < |f.rows| && j != i ==> r.rows[j] == f.rows[j]
  {
    var g := f.(rows := f.rows[i := f.rows[i].(qtd := Str(text))]);
    CalculateItemTotal(g, i)
  }

  /** The price input's `onchange`; `text` is the value the input reports,
      as for SetQuantity. */
  function SetPrice(f: Form, i: int, text: string): (r: Form)
    requires 0 <= i < |f.rows|
    ensures TotalShown(r) && |r.rows| == |f.rows|
    ensures var edited := f.rows[i].(valor := Str(text));
            r.rows[i] == edited.(total := FormatCurrency(LineValue(edited)))
    ensures forall j :: 0 <= j < |f.rows| && j != i ==> r.rows[j] == f.rows[j]
  {
    var g := f.(rows := f.rows[i := f.rows[i].(valor := Str(text))]);
    CalculateItemTotal(g, i)
  }

  /** A quantity that is not a number counts as 0. */
  lemma NonNumericQuantity(f: Form, i: int, text: string)
    requires 0 <= i < |f.rows| && ParseFloat(text).None?
    ensures SetQuantity(f, i, text).rows[i].total == FormatCurrency(0.0)
  {
  }

  /** Likewise a price that is not a number makes the line total that of 0. */
  lemma NonNumericPrice(f: Form, i: int, text: string)
    requires 0 <= i < |f.rows| && ParseFloat(text).None?
    ensures SetPrice(f, i, text).rows[i].total == FormatCurrency(0.0)
  {
  }

  // ---------------------------------------------------------------------
  // Loading and saving
  // ---------------------------------------------------------------------

  /** The row editOrdem fills in for a stored item. */
  function LoadedRow(itemNo: int, it: StoredItem): (r: Row)
    ensures r.itemNo == itemNo && r.total == (if it.valorTotal == "" then "R$ 0,00" else it.valorTotal)
    ensures r.qtd == Or(it.quantidade, Num(1.0)) && r.valor == Or(it.valorUnitario, Num(0.0))
  {
    Row(itemNo,
        ToUpperCase(it.especificacao),
        Or(it.quantidade, Num(1.0)),
        if it.unidade == "" then "UN" else ToUpperCase(it.unidade),
        Or(it.valorUnitario, Num(0.0)),
        ToUpperCase(it.ipi),
        ToUpperCase(it.st),
        if it.valorTotal == "" then "R$ 0,00" else it.valorTotal)
  }

  function LoadRows(items: seq<StoredItem>): (rows: seq<Row>)
    ensures |rows| == |items|
    ensures forall i :: 0 <= i < |items| ==> rows[i] == LoadedRow(i + 1, items[i])
  {
    seq(|items|, i requires 0 <= i < |items| => LoadedRow(i + 1, items[i]))
  }

  /** editOrdem's item table: one loaded row per stored item, or a single
      empty row when there is none. The order-total input shows the stored
      amount, not a recalculated one. */
  function LoadForEdit(o: Order): (f: Form)
    ensures Numbered(f)
    ensures |o.items| == 0 ==> f.rows == [NewRow(1)]
    ensures |o.items| > 0 ==> f.rows == LoadRows(o.items)
    ensures f.orderTotal == Or(o.valorTotal, Undefined)
  {
    var start := Form([], 0, Or(o.valorTotal, Undefined));
    if |o.items| == 0 then AddItem(start)
    else Form(LoadRows(o.items), |o.items|, start.orderTotal)
  }

  /** handleSubmit's item payload: position, upper-cased text, numbers read
      from the inputs, the total text as shown. */
  function BuildItems(rows: seq<Row>): (items: seq<StoredItem>)
    ensures |items| == |rows|
    ensures forall i :: 0 <= i < |rows| ==>
              items[i].item == i + 1
              && items[i].quantidade == Num(ReadNumber(rows[i].qtd))
              && items[i].valorUnitario == Num(ReadNumber(rows[i].valor))
              && items[i].valorTotal == rows[i].total
  {
    seq(|rows|, i requires 0 <= i < |rows| =>
      StoredItem(i + 1, ToUpperCase(rows[i].especificacao), Num(ReadNumber(rows[i].qtd)),
                 ToUpperCase(rows[i].unid), Num(ReadNumber(rows[i].valor)),
                 ToUpperCase(rows[i].ipi), ToUpperCase(rows[i].st), rows[i].total))
  }

  /** Saving and reopening an order keeps the numbering, every line total
      and every price; a quantity comes back unchanged unless it was 0. */
  lemma SaveThenLoad(o: Order, f: Form)
    requires Numbered(f) && |f.rows| > 0 && o.items == BuildItems(f.rows)
    requires forall i :: 0 <= i < |f.rows| ==> f.rows[i].total != ""
    ensures var g := LoadForEdit(o);
            |g.rows| == |f.rows|
            && forall i :: 0 <= i < |f.rows| ==>
                 g.rows[i].itemNo == f.rows[i].itemNo
                 && g.rows[i].total == f.rows[i].total
                 && ReadNumber(g.rows[i].valor) == ReadNumber(f.rows[i].valor)
                 && (ReadNumber(f.rows[i].qtd) != 0.0 ==> ReadNumber(g.rows[i].qtd) == ReadNumber(f.rows[i].qtd))
  {
  }

  /** A saved quantity of 0 is reopened as 1 (`item.quantidade || 1`). */
  lemma ZeroQuantityReloadsAsOne(it: StoredItem)
    requires it.quantidade == Num(0.0)
    ensures ReadNumber(LoadedRow(1, it).qtd) == 1.0
  {
  }
}

=== FILE: js.dfy ===
/**
 The slice of JavaScript's value model the order-form code relies on: which
 values are falsy, what `a || b` yields, and what `String(v)` gives for the
 non-number values that reach the currency parser.
 */
module Js {

  datatype Option<+T> = None | Some(value: T)

  /** A JavaScript value as it arrives from a JSON body, a form field or an
      order record. Numbers are exact reals: JSON cannot carry NaN or the
      infinities. `Composite` stands for objects and arrays, which are always
      truthy; `text` is what `String(v)` renders them as. */
  datatype JsValue =
    | Undefined
    | Null
    | Bool(b: bool)
    | Num(n: real)
    | Str(s: string)
    | Composite(text: string)

  /** JavaScript truthiness: undefined, null, false, 0 and "" are falsy. */
  predicate Truthy(v: JsValue) {
    match v
    case Undefined => false
    case Null => false
    case Bool(b) => b
    case Num(n) => n != 0.0
    case Str(s) => s != ""
    case Composite(_) => true
  }

  /** `a || b`: the left operand when it is truthy, otherwise the right one. */
  function Or(a: JsValue, b: JsValue): (r: JsValue)
    ensures Truthy(a) ==> r == a
    ensures !Truthy(a) ==> r == b
  {
    if Truthy(a) then a else b
  }

  /** `String(v)` for every value except numbers (number-to-string conversion
      is not needed by the modelled code paths). */
  function ToText(v: JsValue): string
    requires !v.Num?
  {
    match v
    case Undefined => "undefined"
    case Null => "null"
    case Bool(b) => if b then "true" else "false"
    case Str(s) => s
    case Composite(t) => t
  }

  /** The `x || null` idiom the server uses for optional columns. */
  function OrNull(v: JsValue): (r: JsValue)
    ensures r == Null || r == v
    ensures Truthy(v) <==> r == v && r != Null
    ensures !Truthy(r) ==> r == Null
  {
    Or(v, Null)
  }
}

=== FILE: orders.dfy ===
/**
 The order list of public/script.js (`ordens`) and the pure rules over it:
 the month filter, the dashboard counters, the next order number, the
 id fingerprint that decides whether to re-render, the list edits made after
 a successful create, update or delete, and the status flip.
 */
module Orders {
  import opened Js
  import opened Text
  import opened Currency
  import opened Dates

  /** A line item as the form sends it and the order stores it. Quantities
      and prices are numbers in what the form sends, but are kept as values
      because a stored row may hold anything; absent text fields are "". */
  datatype StoredItem = StoredItem(
    item: int,
    especificacao: string,
    quantidade: JsValue,
    unidade: string,
    valorUnitario: JsValue,
    ipi: string,
    st: string,
    valorTotal: string)

  /** An order row as the server returns it. `id` is the `String(id)` form
      the code compares; `date` is `data_ordem` as a calendar date, None when
      it does not denote one; absent text columns are "". */
  datatype Order = Order(
    id: string,
    numero: string,
    date: Option<CalDate>,
    razaoSocial: string,
    nomeFantasia: string,
    cnpj: string,
    endereco: string,
    site: string,
    contato: string,
    telefone: string,
    email: string,
    status: string,
    valorTotal: JsValue,
    items: seq<StoredItem>)

  // ---------------------------------------------------------------------
  // Month filter and dashboard
  // ---------------------------------------------------------------------

  /** getOrdensForCurrentMonth's test: same month and same year. */
  predicate InMonth(o: Order, current: CalDate) {
    o.date.Some? && o.date.value.month == current.month && o.date.value.year == current.year
  }

  function MonthOrders(orders: seq<Order>, current: CalDate): (r: seq<Order>)
    ensures |r| <= |orders|
    ensures forall o :: o in r <==> o in orders && InMonth(o, current)
  {
    if |orders| == 0 then []
    else
      var rest := MonthOrders(orders[..|orders| - 1], current);
      var o := orders[|orders| - 1];
      assert orders == orders[..|orders| - 1] + [o];
      if InMonth(o, current) then rest + [o] else rest
  }

  /** The number of orders whose status is exactly `status`. */
  function CountStatus(orders: seq<Order>, status: string): (n: nat)
    ensures n <= |orders|
    ensures n == 0 <==> forall o :: o in orders ==> o.status != status
  {
    if |orders| == 0 then 0
    else
      var k := CountStatus(orders[..|orders| - 1], status);
      assert orders == orders[..|orders| - 1] + [orders[|orders| - 1]];
      k + (if orders[|orders| - 1].status == status then 1 else 0)
  }

  lemma {:induction false} CountStatusAppend(a: seq<Order>, b: seq<Order>, status: string)
    ensures CountStatus(a + b, status) == CountStatus(a, status) + CountStatus(b, status)
    decreases |b|
  {
    if |b| == 0 {
      assert a + b == a;
    } else {
      assert (a + b)[..|a + b| - 1] == a + b[..|b| - 1];
      CountStatusAppend(a, b[..|b| - 1], status);
    }
  }

  /** Open and closed orders never outnumber the list, and fill it exactly
      when every status is one of the two. */
  lemma {:induction false} OpenPlusClosed(orders: seq<Order>)
    ensures CountStatus(orders, "aberta") + CountStatus(orders, "fechada") <= |orders|
    ensures CountStatus(orders, "aberta") + CountStatus(orders, "fechada") == |orders|
            <==> forall o :: o in orders ==> o.status == "aberta" || o.status == "fechada"
  {
    if |orders| > 0 {
      var p := orders[..|orders| - 1];
      OpenPlusClosed(p);
      assert orders == p + [orders[|orders| - 1]];
    }
  }

  /** The amounts of the orders, read with parseCurrency and added up. */
  function SumValues(orders: seq<Order>): (r: real)
    ensures |orders| == 0 ==> r == 0.0
    ensures |orders| == 1 ==> r == ParseCurrency(orders[0].valorTotal)
  {
    if |orders| == 0 then 0.0
    else SumValues(orders[..|orders| - 1]) + ParseCurrency(orders[|orders| - 1].valorTotal)
  }

  /** The month's amount is additive: each order contributes its own
      parsed amount, whatever the others are. */
  lemma {:induction false} SumValuesAppend(a: seq<Order>, b: seq<Order>)
    ensures SumValues(a + b) == SumValues(a) + SumValues(b)
    decreases |b|
  {
    if |b| == 0 {
      assert a + b == a;
    } else {
      assert (a + b)[..|a + b| - 1] == a + b[..|b| - 1];
      SumValuesAppend(a, b[..|b| - 1]);
    }
  }

  // ---------------------------------------------------------------------
  // Order numbers
  // ---------------------------------------------------------------------

  /** `parseInt` of every order number, NaN results dropped. */
  function ParsedNumbers(orders: seq<Order>): (ns: seq<int>)
    ensures forall n :: n in ns <==> exists o :: o in orders && ParseInt(o.numero) == Some(n)
  {
    if |orders| == 0 then []
    else
      var rest := ParsedNumbers(orders[..|orders| - 1]);
      var o := orders[|orders| - 1];
      assert orders == orders[..|orders| - 1] + [o];
      match ParseInt(o.numero)
      case None => rest
      case Some(n) => rest + [n]
  }

  function Max(ns: seq<int>): (m: int)
    requires |ns| > 0
    ensures m in ns
    ensures forall i :: 0 <= i < |ns| ==> ns[i] <= m
  {
    if |ns| == 1 then ns[0]
    else
      var m := Max(ns[1..]);
      assert ns == [ns[0]] + ns[1..];
      if ns[0] > m then ns[0] else m
  }

  /** The largest parsed number bounds every order number that parses and
      is one of them. */
  lemma MaxOfParsed(orders: seq<Order>)
    requires |ParsedNumbers(orders)| > 0
    ensures forall o :: o in orders && ParseInt(o.numero).Some? ==> ParseInt(o.numero).value <= Max(ParsedNumbers(orders))
    ensures exists o :: o in orders && ParseInt(o.numero) == Some(Max(ParsedNumbers(orders)))
  {
    var ns := ParsedNumbers(orders);
    var m := Max(ns);
    forall o | o in orders && ParseInt(o.numero).Some?
      ensures ParseInt(o.numero).value <= m
    {
      var n := ParseInt(o.numero).value;
      assert n in ns;
      var i :| 0 <= i < |ns| && ns[i] == n;
    }
    assert m in ns;
  }

  /** getNextOrderNumber: one past the largest order number that parses,
      "1250" when none does. */
  function NextOrderNumber(orders: seq<Order>): (r: string)
    ensures (forall o :: o in orders ==> ParseInt(o.numero).None?) ==> r == "1250"
    ensures (exists o :: o in orders && ParseInt(o.numero).Some?) ==>
              ParseInt(r).Some?
              && (forall o :: o in orders && ParseInt(o.numero).Some? ==> ParseInt(o.numero).value < ParseInt(r).value)
              && (exists o :: o in orders && ParseInt(o.numero) == Some(ParseInt(r).value - 1))
    ensures (exists o :: o in orders && ParseInt(o.numero).Some?) ==> r == IntToString(UltimoNumero(orders) + 1)
  {
    var ns := ParsedNumbers(orders);
    if |ns| == 0 then
      assert forall o :: o in orders ==> ParseInt(o.numero).None?;
      "1250"
    else
      var m := Max(ns);
      MaxOfParsed(orders);
      ParseIntOfIntToString(m + 1);
      IntToString(m + 1)
  }

  /** updateDashboard's figures. `ultimoNumero` is taken over all orders,
      the counts and the amount over the month's orders only. */
  datatype Dashboard = Dashboard(ultimoNumero: int, fechadas: nat, abertas: nat, valorTotal: string)

  /** The largest order number that parses, 0 when none does. */
  function UltimoNumero(orders: seq<Order>): (u: int)
    ensures (forall o :: o in orders ==> ParseInt(o.numero).None?) ==> u == 0
    ensures forall o :: o in orders && ParseInt(o.numero).Some? ==> ParseInt(o.numero).value <= u
    ensures (exists o :: o in orders && ParseInt(o.numero).Some?) ==>
              exists o :: o in orders && ParseInt(o.numero) == Some(u)
  {
    var ns := ParsedNumbers(orders);
    if |ns| == 0 then 0
    else
      MaxOfParsed(orders);
      Max(ns)
  }

  function ComputeDashboard(orders: seq<Order>, current: CalDate): (d: Dashboard)
    ensures d.fechadas + d.abertas <= |MonthOrders(orders, current)|
    ensures d.fechadas == CountStatus(MonthOrders(orders, current), "fechada")
    ensures d.abertas == CountStatus(MonthOrders(orders, current), "aberta")
    ensures d.ultimoNumero == UltimoNumero(orders)
    ensures d.valorTotal == FormatCurrency(SumValues(MonthOrders(orders, current)))
  {
    var month := MonthOrders(orders, current);
    OpenPlusClosed(month);
    Dashboard(UltimoNumero(orders), CountStatus(month, "fechada"), CountStatus(month, "aberta"),
              FormatCurrency(SumValues(month)))
  }

  /** The "last number" card ignores the month being shown. */
  lemma UltimoIsGlobal(orders: seq<Order>, a: CalDate, b: CalDate)
    ensures ComputeDashboard(orders, a).ultimoNumero == ComputeDashboard(orders, b).ultimoNumero
  {
  }

  lemma {:induction false} MonthOrdersAppend(a: seq<Order>, b: seq<Order>, current: CalDate)
    ensures MonthOrders(a + b, current) == MonthOrders(a, current) + MonthOrders(b, current)
    decreases |b|
  {
    if |b| == 0 {
      assert a + b == a;
    } else {
      assert (a + b)[..|a + b| - 1] == a + b[..|b| - 1];
      MonthOrdersAppend(a, b[..|b| - 1], current);
    }
  }

  /** An order of another month leaves the month's counters and amount alone,
      while the order numbers still come from the whole list. */
  lemma OtherMonthIgnored(orders: seq<Order>, o: Order, current: CalDate)
    requires !InMonth(o, current)
    ensures var before := ComputeDashboard(orders, current);
            var after := ComputeDashboard(orders + [o], current);
            after.fechadas == before.fechadas && after.abertas == before.abertas
            && after.valorTotal == before.valorTotal
  {
    MonthOrdersAppend(orders, [o], current);
    assert MonthOrders([o], current) == [] by {
      assert [o][..0] == [];
    }
    assert orders + [o] == orders + [o];
    assert MonthOrders(orders + [o], current) == MonthOrders(orders, current);
  }

  // ---------------------------------------------------------------------
  // Fingerprint and list edits
  // ---------------------------------------------------------------------

  /** `JSON.stringify(ordens.map(o => o.id))`, kept as the id list itself:
      two lists have the same fingerprint exactly when their ids agree in order. */
  function Fingerprint(orders: seq<Order>): (f: seq<string>)
    ensures |f| == |orders|
    ensures forall i :: 0 <= i < |orders| ==> f[i] == orders[i].id
  {
    seq(|orders|, i requires 0 <= i < |orders| => orders[i].id)
  }

  /** The position of the first order with this id, as `findIndex` returns
      it; -1 when there is none. */
  function FindIndex(orders: seq<Order>, id: string): (k: int)
    ensures -1 <= k < |orders|
    ensures k == -1 <==> forall i :: 0 <= i < |orders| ==> orders[i].id != id
    ensures k >= 0 ==> orders[k].id == id && forall i :: 0 <= i < k ==> orders[i].id != id
  {
    if |orders| == 0 then -1
    else if orders[0].id == id then 0
    else
      var k := FindIndex(orders[1..], id);
      if k == -1 then -1 else k + 1
  }

  /** A created order is appended. */
  function Create(orders: seq<Order>, saved: Order): (r: seq<Order>)
    ensures |r| == |orders| + 1 && r[..|orders|] == orders && r[|orders|] == saved
  {
    orders + [saved]
  }

  /** An updated order replaces the first order with its id; nothing happens
      when the id is gone. */
  function Update(orders: seq<Order>, id: string, saved: Order): (r: seq<Order>)
    ensures |r| == |orders|
    ensures FindIndex(orders, id) == -1 ==> r == orders
    ensures FindIndex(orders, id) >= 0 ==> r[FindIndex(orders, id)] == saved
    ensures forall i :: 0 <= i < |orders| && i != FindIndex(orders, id) ==> r[i] == orders[i]
  {
    var k := FindIndex(orders, id);
    if k == -1 then orders else orders[k := saved]
  }

  /** A deleted order is filtered out, with every other order carrying the
      same id. */
  function Delete(orders: seq<Order>, id: string): (r: seq<Order>)
    ensures |r| <= |orders|
    ensures forall o :: o in r <==> o in orders && o.id != id
  {
    if |orders| == 0 then []
    else
      var rest := Delete(orders[1..], id);
      assert orders == [orders[0]] + orders[1..];
      if orders[0].id == id then rest else [orders[0]] + rest
  }

  lemma {:induction false} DeleteAbsent(orders: seq<Order>, id: string)
    requires FindIndex(orders, id) == -1
    ensures Delete(orders, id) == orders
  {
    if |orders| > 0 {
      assert orders[0].id != id;
      assert FindIndex(orders[1..], id) == -1 by {
        assert forall i :: 0 <= i < |orders| - 1 ==> orders[1..][i] == orders[i + 1];
      }
      DeleteAbsent(orders[1..], id);
      assert orders == [orders[0]] + orders[1..];
    }
  }

  /** Deleting an id that was just created removes exactly the new order
      when the id was not in the list before. */
  lemma CreateThenDelete(orders: seq<Order>, saved: Order)
    requires FindIndex(orders, saved.id) == -1
    ensures Delete(Create(orders, saved), saved.id) == orders
  {
    DeleteAppend(orders, [saved], saved.id);
    DeleteAbsent(orders, saved.id);
    assert Delete([saved], saved.id) == [] by {
      assert [saved][1..] == [];
    }
  }

  lemma {:induction false} DeleteAppend(a: seq<Order>, b: seq<Order>, id: string)
    ensures Delete(a + b, id) == Delete(a, id) + Delete(b, id)
  {
    if |a| == 0 {
      assert a + b == b;
    } else {
      assert (a + b)[1..] == a[1..] + b;
      DeleteAppend(a[1..], b, id);
    }
  }

  /** After an update the fingerprint changes only if the saved order comes
      back with a different id. */
  lemma UpdateKeepsFingerprint(orders: seq<Order>, id: string, saved: Order)
    requires saved.id == id
    ensures Fingerprint(Update(orders, id, saved)) == Fingerprint(orders)
  {
  }

  // ---------------------------------------------------------------------
  // Status
  // ---------------------------------------------------------------------

  /** toggleStatus's new status: `aberta` becomes `fechada`, anything else
      becomes `aberta`. */
  function Flip(status: string): (r: string)
    ensures r == "aberta" || r == "fechada"
    ensures r == "fechada" <==> status == "aberta"
  {
    if status == "aberta" then "fechada" else "aberta"
  }

  /** Flipping twice gives back each of the two known statuses. */
  lemma FlipInvolution(status: string)
    requires status == "aberta" || status == "fechada"
    ensures Flip(Flip(status)) == status
  {
  }
}

=== FILE: server.dfy ===
/**
 The decision rules of server.js, as functions of the request and of what the
 session portal and the store answered: the camelCase to snake_case row
 built for POST and PUT, the status rules, the PATCH whitelist, the
 authentication middleware and the mapping of store errors to replies.
 */
module Server {
  import opened Js

  /** A parsed JSON body; a missing key reads as `undefined`. */
  type Body = map<string, JsValue>

  function Field(b: Body, key: string): (v: JsValue)
    ensures key !in b ==> v == Undefined
  {
    if key in b then b[key] else Undefined
  }

  // ---------------------------------------------------------------------
  // The stored row
  // ---------------------------------------------------------------------

  /** A column of `ordens_compra`: the body field it is read from, and
      whether a falsy value is stored as null. */
  datatype Column = Column(camel: string, snake: string, optional: bool)

  const Columns: seq<Column> := [
    Column("numeroOrdem", "numero_ordem", false),
    Column("responsavel", "responsavel", false),
    Column("dataOrdem", "data_ordem", false),
    Column("razaoSocial", "razao_social", false),
    Column("nomeFantasia", "nome_fantasia", true),
    Column("cnpj", "cnpj", false),
    Column("enderecoFornecedor", "endereco_fornecedor", true),
    Column("site", "site", true),
    Column("contato", "contato", true),
    Column("telefone", "telefone", true),
    Column("email", "email", true),
    Column("items", "items", false),
    Column("valorTotal", "valor_total", false),
    Column("frete", "frete", true),
    Column("localEntrega", "local_entrega", true),
    Column("prazoEntrega", "prazo_entrega", true),
    Column("transporte", "transporte", true),
    Column("formaPagamento", "forma_pagamento", false),
    Column("prazoPagamento", "prazo_pagamento", false),
    Column("dadosBancarios", "dados_bancarios", true)
  ]

  /** The value a column receives: a required field is copied as it is
      (`undefined` included, which leaves the column out of the JSON sent to
      the store); an optional one is `field || null`. */
  function ColumnValue(b: Body, c: Column): (v: JsValue)
    ensures !c.optional ==> v == Field(b, c.camel)
    ensures c.optional ==> (Truthy(Field(b, c.camel)) ==> v == Field(b, c.camel)) && (!Truthy(Field(b, c.camel)) ==> v == Null)
  {
    if c.optional then OrNull(Field(b, c.camel)) else Field(b, c.camel)
  }

  /** No column is read from the body's `status` field. */
  lemma NoStatusColumn()
    ensures forall i :: 0 <= i < |Columns| ==> Columns[i].camel != "status" && Columns[i].snake != "status"
  {
  }

  /** A property of the object literal `ordemData`, in the order written. */
  datatype Property = Property(key: string, value: JsValue)

  /** The properties for the columns, one per column in table order. */
  function ColumnProperties(b: Body): (ps: seq<Property>)
    ensures |ps| == |Columns|
    ensures forall i :: 0 <= i < |Columns| ==> ps[i] == Property(Columns[i].snake, ColumnValue(b, Columns[i]))
  {
    seq(|Columns|, i requires 0 <= i < |Columns| => Property(Columns[i].snake, ColumnValue(b, Columns[i])))
  }

  /** The row POST /api/ordens inserts: the column properties, then status
      always `aberta`. */
  function PostRow(b: Body): (row: seq<Property>)
    ensures |row| == |Columns| + 1
    ensures row[..|Columns|] == ColumnProperties(b)
    ensures row[|Columns|] == Property("status", Str("aberta"))
  {
    ColumnProperties(b) + [Property("status", Str("aberta"))]
  }

  /** The row PUT /api/ordens/:id writes: the column properties, then status
      the body's, or `aberta` when that is missing or falsy. */
  function PutRow(b: Body): (row: seq<Property>)
    ensures |row| == |Columns| + 1
    ensures row[..|Columns|] == ColumnProperties(b)
    ensures row[|Columns|].key == "status"
    ensures Truthy(Field(b, "status")) ==> row[|Columns|].value == Field(b, "status")
    ensures !Truthy(Field(b, "status")) ==> row[|Columns|].value == Str("aberta")
  {
    ColumnProperties(b) + [Property("status", Or(Field(b, "status"), Str("aberta")))]
  }

  /** Whatever status a POST body carries, the inserted row is the same. */
  lemma PostIgnoresStatus(b: Body, s: JsValue)
    ensures PostRow(b["status" := s]) == PostRow(b)
  {
    NoStatusColumn();
    var b' := b["status" := s];
    assert forall i :: 0 <= i < |Columns| ==> Field(b', Columns[i].camel) == Field(b, Columns[i].camel);
    assert ColumnProperties(b') == ColumnProperties(b);
  }

  /** POST and PUT build the same row apart from the status. */
  lemma PostPutAgree(b: Body)
    ensures |PostRow(b)| == |PutRow(b)|
    ensures forall i :: 0 <= i < |PostRow(b)| ==> PostRow(b)[i].key == PutRow(b)[i].key
    ensures forall i :: 0 <= i < |PostRow(b)| && PostRow(b)[i].key != "status" ==> PostRow(b)[i] == PutRow(b)[i]
  {
    NoStatusColumn();
    assert forall i :: 0 <= i < |Columns| ==> PostRow(b)[i] == ColumnProperties(b)[i] == PutRow(b)[i];
  }

  /** An optional column never stores a falsy value other than null. */
  lemma OptionalNeverFalsy(b: Body, i: int)
    requires 0 <= i < |Columns| && Columns[i].optional
    ensures var v := PostRow(b)[i].value; v == Null || Truthy(v)
  {
  }

  // ---------------------------------------------------------------------
  // Replies
  // ---------------------------------------------------------------------

  /** A JSON reply: a success carrying the store's data, or an error. */
  datatype Reply = Success(status: int, data: JsValue) | Failure(status: int, error: string)

  /** What the store answered: the row(s), or an error with its code. */
  datatype StoreResult = Stored(data: JsValue) | StoreError(code: string)

  /** The error reply of a route; only the routes that read a single row map
      `PGRST116` (no row matched) to 404. */
  function ErrorReply(code: string, singleRow: bool, message: string): (r: Reply)
    ensures r.Failure?
    ensures r.status == 404 <==> singleRow && code == "PGRST116"
    ensures r.status != 404 ==> r.status == 500 && r.error == message
  {
    if singleRow && code == "PGRST116" then Failure(404, "Ordem não encontrada")
    else Failure(500, message)
  }

  /** GET /api/ordens: the store's list, or `[]` for an empty answer. */
  function ListReply(store: StoreResult): (r: Reply)
    ensures store.Stored? ==> r.Success? && r.status == 200
    ensures store.Stored? && Truthy(store.data) ==> r.data == store.data
    ensures store.Stored? && !Truthy(store.data) ==> r.data == Composite("[]")
    ensures store.StoreError? ==> r == Failure(500, "Erro ao listar ordens")
  {
    match store
    case Stored(d) => Success(200, Or(d, Composite("[]")))
    case StoreError(_) => Failure(500, "Erro ao listar ordens")
  }

  /** The reply of a route that reads or writes one row by id: 200 with the
      row, 404 when no row matched, 500 with the route's message otherwise. */
  function SingleRowReply(store: StoreResult, message: string): (r: Reply)
    ensures store.Stored? ==> r == Success(200, store.data)
    ensures store.StoreError? ==> r.Failure? && (r.status == 404 <==> store.code == "PGRST116")
    ensures store.StoreError? && r.status != 404 ==> r == Failure(500, message)
  {
    match store
    case Stored(d) => Success(200, d)
    case StoreError(code) => ErrorReply(code, true, message)
  }

  /** GET /api/ordens/:id. */
  function GetReply(store: StoreResult): (r: Reply)
    ensures store.Stored? ==> r == Success(200, store.data)
    ensures store.StoreError? ==> r.Failure? && (r.status == 404 <==> store.code == "PGRST116")
    ensures store.StoreError? && r.status != 404 ==> r == Failure(500, "Erro ao buscar ordem")
  {
    SingleRowReply(store, "Erro ao buscar ordem")
  }

  /** POST /api/ordens: 201 with the inserted row; every store error is 500. */
  function PostReply(store: StoreResult): (r: Reply)
    ensures store.Stored? ==> r == Success(201, store.data)
    ensures store.StoreError? ==> r == Failure(500, "Erro ao criar ordem")
  {
    match store
    case Stored(d) => Success(201, d)
    case StoreError(code) => ErrorReply(code, false, "Erro ao criar ordem")
  }

  /** PUT /api/ordens/:id: the same mapping as GET by id, with its own
      message. */
  function PutReply(store: StoreResult): (r: Reply)
    ensures store.Stored? ==> r == Success(200, store.data)
    ensures store.StoreError? ==> r.Failure? && (r.status == 404 <==> store.code == "PGRST116")
    ensures store.StoreError? && r.status != 404 ==> r == Failure(500, "Erro ao atualizar ordem")
  {
    SingleRowReply(store, "Erro ao atualizar ordem")
  }

  /** The PATCH whitelist: exactly the strings `aberta` and `fechada`. */
  predicate ValidStatus(v: JsValue) {
    v == Str("aberta") || v == Str("fechada")
  }

  /** PATCH /api/ordens/:id/status: an unknown status is refused with 400
      before the store is asked. */
  function PatchReply(b: Body, store: StoreResult): (r: Reply)
    ensures !ValidStatus(Field(b, "status")) ==> r == Failure(400, "Status inválido")
    ensures ValidStatus(Field(b, "status")) && store.Stored? ==> r == Success(200, store.data)
    ensures ValidStatus(Field(b, "status")) ==> r == SingleRowReply(store, "Erro ao atualizar status")
  {
    if !ValidStatus(Field(b, "status")) then Failure(400, "Status inválido")
    else SingleRowReply(store, "Erro ao atualizar status")
  }

  /** The status a valid PATCH writes. */
  function PatchedStatus(b: Body): (s: string)
    requires ValidStatus(Field(b, "status"))
    ensures s == "aberta" || s == "fechada"
    ensures Field(b, "status") == Str(s)
  {
    Field(b, "status").s
  }

  /** A refused PATCH does not depend on what the store would answer. */
  lemma PatchRejectsBeforeStore(b: Body, s1: StoreResult, s2: StoreResult)
    requires !ValidStatus(Field(b, "status"))
    ensures PatchReply(b, s1) == PatchReply(b, s2) && PatchReply(b, s1).status == 400
  {
  }

  /** DELETE /api/ordens/:id: any store error is 500, a missing row is not
      an error. */
  function DeleteReply(error: Option<string>): (r: Reply)
    ensures error.None? ==> r.Success? && r.status == 200
    ensures error.Some? ==> r == Failure(500, "Erro ao deletar ordem")
  {
    match error
    case None => Success(200, Composite("{\"success\":true,\"message\":\"Ordem removida com sucesso\"}"))
    case Some(code) => ErrorReply(code, false, "Erro ao deletar ordem")
  }

  /** Only the single-row reads and writes turn `PGRST116` into 404. */
  lemma NotFoundRoutes(code: string)
    requires code == "PGRST116"
    ensures GetReply(StoreError(code)).status == 404
    ensures PutReply(StoreError(code)).status == 404
    ensures PatchReply(map["status" := Str("fechada")], StoreError(code)).status == 404
    ensures PostReply(StoreError(code)).status == 500
    ensures DeleteReply(Some(code)).status == 500
  {
  }

  // ---------------------------------------------------------------------
  // Authentication
  // ---------------------------------------------------------------------

  /** What the portal's verify-session call gave: an exception (network
      error or a body that is not JSON), or a response with its `ok` flag and
      the `valid` field of its body. */
  datatype Verify = VerifyThrew | VerifyAnswered(ok: bool, valid: JsValue)

  datatype AuthOutcome = Proceed | Deny(status: int, error: string)

  predicate IsPublic(path: string) {
    path == "/" || path == "/health"
  }

  /** verificarAutenticacao. */
  function Authenticate(path: string, token: JsValue, verify: Verify): (r: AuthOutcome)
    ensures r.Proceed? <==>
              IsPublic(path) || (Truthy(token) && verify.VerifyAnswered? && verify.ok && Truthy(verify.valid))
    ensures r.Deny? ==> r.status == 401 || r.status == 500
    ensures r.Deny? && r.status == 500 <==> !IsPublic(path) && Truthy(token) && verify.VerifyThrew?
    ensures !IsPublic(path) && !Truthy(token) ==> r == Deny(401, "Não autenticado")
  {
    if IsPublic(path) then Proceed
    else if !Truthy(token) then Deny(401, "Não autenticado")
    else match verify
      case VerifyThrew => Deny(500, "Erro ao verificar autenticação")
      case VerifyAnswered(ok, valid) =>
        if !ok then Deny(401, "Sessão inválida")
        else if !Truthy(valid) then Deny(401, "Sessão inválida")
        else Proceed
  }

  /** Without a token the portal is never consulted. */
  lemma NoTokenSkipsPortal(path: string, token: JsValue, v1: Verify, v2: Verify)
    requires !Truthy(token)
    ensures Authenticate(path, token, v1) == Authenticate(path, token, v2)
  {
  }

  /** The routes behind the middleware. */
  datatype Route = ListOrders | GetOrder | PostOrder | PutOrder | PatchStatus | DeleteOrder

  /** A request through the middleware and its route. `store` is what the
      store answers for that route; DELETE only looks at its error code. */
  function Handle(route: Route, path: string, token: JsValue, verify: Verify, b: Body, store: StoreResult): (r: Reply)
    ensures Authenticate(path, token, verify).Deny? ==>
              r == Failure(Authenticate(path, token, verify).status, Authenticate(path, token, verify).error)
  {
    match Authenticate(path, token, verify)
    case Deny(status, error) => Failure(status, error)
    case Proceed =>
      match route
      case ListOrders => ListReply(store)
      case GetOrder => GetReply(store)
      case PostOrder => PostReply(store)
      case PutOrder => PutReply(store)
      case PatchStatus => PatchReply(b, store)
      case DeleteOrder => DeleteReply(if store.StoreError? then Some(store.code) else None)
  }

  /** A denied request gets the same reply whatever the route and the store. */
  lemma DeniedIgnoresRoute(path: string, token: JsValue, verify: Verify,
                           r1: Route, r2: Route, b: Body, s1: StoreResult, s2: StoreResult)
    requires Authenticate(path, token, verify).Deny?
    ensures Handle(r1, path, token, verify, b, s1) == Handle(r2, path, token, verify, b, s2)
    ensures Handle(r1, path, token, verify, b, s1).status in {401, 500}
  {
  }
}

=== FILE: suppliers.dfy ===
/**
 The supplier cache of public/script.js (`fornecedoresCache`): rebuilt from
 the order list on every load, keyed by the upper-cased, trimmed razão social,
 first order wins; and the autocomplete search over it.
 */
module Suppliers {
  import opened Text
  import opened Orders

  /** A cache entry: the supplier fields copied from an order. */
  datatype Supplier = Supplier(
    razaoSocial: string,
    nomeFantasia: string,
    cnpj: string,
    endereco: string,
    site: string,
    contato: string,
    telefone: string,
    email: string)

  /** The cache as an object: `keys` in insertion order (the order
      `Object.keys` lists them in) and the entry under each key. */
  datatype Cache = Cache(keys: seq<string>, entries: map<string, Supplier>)

  ghost predicate WellFormed(c: Cache) {
    && (forall i, j :: 0 <= i < j < |c.keys| ==> c.keys[i] != c.keys[j])
    && (forall k :: k in c.entries <==> k in c.keys)
  }

  /** The key an order files its supplier under; "" means no key. */
  function KeyOf(o: Order): string {
    Trim(ToUpperCase(o.razaoSocial))
  }

  /** The entry built from an order: text fields upper-cased, identifiers
      copied. The razão social is upper-cased but not trimmed. */
  function EntryOf(o: Order): (s: Supplier)
    ensures s.razaoSocial == ToUpperCase(o.razaoSocial) && s.nomeFantasia == ToUpperCase(o.nomeFantasia)
    ensures s.endereco == ToUpperCase(o.endereco) && s.contato == ToUpperCase(o.contato)
    ensures s.cnpj == o.cnpj && s.site == o.site && s.telefone == o.telefone && s.email == o.email
  {
    Supplier(ToUpperCase(o.razaoSocial), ToUpperCase(o.nomeFantasia), o.cnpj,
             ToUpperCase(o.endereco), o.site, ToUpperCase(o.contato), o.telefone, o.email)
  }

  /** What one order contributes: its key and the entry built from it. */
  datatype Filing = Filing(key: string, entry: Supplier)

  function FilingOf(o: Order): Filing {
    Filing(KeyOf(o), EntryOf(o))
  }

  function Filings(orders: seq<Order>): (fs: seq<Filing>)
    ensures |fs| == |orders|
    ensures forall i :: 0 <= i < |orders| ==> fs[i] == FilingOf(orders[i])
  {
    seq(|orders|, i requires 0 <= i < |orders| => FilingOf(orders[i]))
  }

  /** One step of the `forEach`: a filing is added unless its key is empty or
      already present. */
  function Add(c: Cache, f: Filing): (r: Cache)
    requires WellFormed(c)
    ensures WellFormed(r)
    ensures f.key == "" || f.key in c.entries ==> r == c
    ensures f.key != "" && f.key !in c.entries ==>
              r.keys == c.keys + [f.key] && r.entries == c.entries[f.key := f.entry]
  {
    if f.key == "" || f.key in c.entries then c
    else Cache(c.keys + [f.key], c.entries[f.key := f.entry])
  }

  function AddAll(fs: seq<Filing>): (c: Cache)
    ensures WellFormed(c)
  {
    if |fs| == 0 then Cache([], map[])
    else Add(AddAll(fs[..|fs| - 1]), fs[|fs| - 1])
  }

  /** atualizarCacheFornecedores: the cache built from an empty object, one
      order after the other. */
  function Build(orders: seq<Order>): (c: Cache)
    ensures WellFormed(c)
  {
    AddAll(Filings(orders))
  }

  /** The position of the first filing under `key`, or -1. */
  function IndexOf(fs: seq<Filing>, key: string): (k: int)
    ensures -1 <= k < |fs|
    ensures k == -1 <==> forall i :: 0 <= i < |fs| ==> fs[i].key != key
    ensures k >= 0 ==> fs[k].key == key && forall i :: 0 <= i < k ==> fs[i].key != key
  {
    if |fs| == 0 then -1
    else
      var k := IndexOf(fs[..|fs| - 1], key);
      if k >= 0 then k
      else if fs[|fs| - 1].key == key then |fs| - 1
      else -1
  }

  lemma {:induction false} AddAllFirstWins(fs: seq<Filing>, key: string)
    ensures key in AddAll(fs).entries <==> key != "" && IndexOf(fs, key) >= 0
    ensures key in AddAll(fs).entries ==> AddAll(fs).entries[key] == fs[IndexOf(fs, key)].entry
  {
    if |fs| > 0 {
      AddAllFirstWins(fs[..|fs| - 1], key);
    }
  }

  lemma IndexOfPrefix(a: seq<Filing>, b: seq<Filing>, key: string)
    requires IndexOf(a, key) >= 0
    ensures IndexOf(a + b, key) == IndexOf(a, key)
  {
    assert (a + b)[IndexOf(a, key)] == a[IndexOf(a, key)];
  }

  /** The first filing under a key comes from the first order with that key. */
  lemma IndexOfFilings(orders: seq<Order>, key: string)
    ensures var k := IndexOf(Filings(orders), key);
      && (k == -1 ==> forall i :: 0 <= i < |orders| ==> KeyOf(orders[i]) != key)
      && (k >= 0 ==> && k < |orders| && KeyOf(orders[k]) == key
                     && Filings(orders)[k].entry == EntryOf(orders[k])
                     && forall j :: 0 <= j < k ==> KeyOf(orders[j]) != key)
  {
    var fs := Filings(orders);
    assert forall j :: 0 <= j < |orders| ==> fs[j].key == KeyOf(orders[j]);
  }

  /** The cache holds exactly the non-empty keys of the orders, each with the
      entry built from the first order carrying it. */
  lemma BuildFirstWins(orders: seq<Order>, key: string)
    ensures key in Build(orders).entries <==>
              key != "" && exists i :: 0 <= i < |orders| && KeyOf(orders[i]) == key
    ensures key in Build(orders).entries ==>
              exists i :: 0 <= i < |orders| && KeyOf(orders[i]) == key
                && (forall j :: 0 <= j < i ==> KeyOf(orders[j]) != key)
                && Build(orders).entries[key] == EntryOf(orders[i])
  {
    AddAllFirstWins(Filings(orders), key);
    IndexOfFilings(orders, key);
  }

  lemma FilingsAppend(a: seq<Order>, b: seq<Order>)
    ensures Filings(a + b) == Filings(a) + Filings(b)
  {
    var l := Filings(a + b);
    var r := Filings(a) + Filings(b);
    forall i | 0 <= i < |l|
      ensures l[i] == r[i]
    {
      if i < |a| {
        assert (a + b)[i] == a[i];
      } else {
        assert (a + b)[i] == b[i - |a|];
      }
    }
  }

  /** Later orders never overwrite an entry: extending the list keeps every
      key and its entry. */
  lemma BuildExtends(orders: seq<Order>, more: seq<Order>, key: string)
    requires key in Build(orders).entries
    ensures key in Build(orders + more).entries
    ensures Build(orders + more).entries[key] == Build(orders).entries[key]
  {
    var fs := Filings(orders);
    var gs := Filings(more);
    FilingsAppend(orders, more);
    AddAllFirstWins(fs, key);
    AddAllFirstWins(fs + gs, key);
    IndexOfPrefix(fs, gs, key);
  }

  // ---------------------------------------------------------------------
  // Search
  // ---------------------------------------------------------------------

  /** The keys that contain `term`, in key order. */
  function Matching(keys: seq<string>, term: string): (r: seq<string>)
    ensures |r| <= |keys|
    ensures forall k :: k in r <==> k in keys && Contains(k, term)
  {
    if |keys| == 0 then []
    else
      var rest := Matching(keys[..|keys| - 1], term);
      var k := keys[|keys| - 1];
      assert keys == keys[..|keys| - 1] + [k];
      if Contains(k, term) then rest + [k] else rest
  }

  /** The filter keeps the cache order: a key added last is matched last. */
  lemma MatchingAppend(keys: seq<string>, k: string, term: string)
    ensures Matching(keys + [k], term) == Matching(keys, term) + (if Contains(k, term) then [k] else [])
  {
    assert (keys + [k])[..|keys|] == keys;
  }

  /** buscarFornecedoresSimilares: the entries of the first five keys that
      contain the upper-cased, trimmed term; none for a term shorter than two
      characters. */
  function Search(c: Cache, term: string): (r: seq<Supplier>)
    requires WellFormed(c)
    ensures |r| <= 5
    ensures |Trim(ToUpperCase(term))| < 2 ==> r == []
    ensures |Trim(ToUpperCase(term))| >= 2 ==>
              var m := Matching(c.keys, Trim(ToUpperCase(term)));
              |r| == (if |m| < 5 then |m| else 5)
              && forall i :: 0 <= i < |r| ==> m[i] in c.entries && r[i] == c.entries[m[i]]
  {
    var t := Trim(ToUpperCase(term));
    if |t| < 2 then []
    else
      var m := Matching(c.keys, t);
      var n := if |m| < 5 then |m| else 5;
      seq(n, i requires 0 <= i < n => c.entries[m[i]])
  }

  /** Every supplier found is filed under a key that contains the term, and
      when fewer than five are found, every such key was found. */
  lemma SearchSound(c: Cache, term: string)
    requires WellFormed(c) && |Trim(ToUpperCase(term))| >= 2
    ensures forall i :: 0 <= i < |Search(c, term)| ==>
              exists k :: k in c.keys && Contains(k, Trim(ToUpperCase(term))) && Search(c, term)[i] == c.entries[k]
    ensures |Search(c, term)| < 5 ==>
              forall k :: k in c.keys && Contains(k, Trim(ToUpperCase(term))) ==> c.entries[k] in Search(c, term)
  {
    var t := Trim(ToUpperCase(term));
    var m := Matching(c.keys, t);
    var r := Search(c, term);
    forall i | 0 <= i < |r|
      ensures exists k :: k in c.keys && Contains(k, t) && r[i] == c.entries[k]
    {
      assert m[i] in m;
    }
    if |r| < 5 {
      forall k | k in c.keys && Contains(k, t)
        ensures c.entries[k] in r
      {
        var i :| 0 <= i < |m| && m[i] == k;
        assert r[i] == c.entries[k];
      }
    }
  }
}

=== FILE: text.dfy ===
/**
 String primitives of the browser the order form runs in: upper-casing,
 trimming, substring search, and the two number readers `parseInt` and
 `parseFloat`, plus decimal printing of integers.
 */
module Text {
  import opened Js

  // ---------------------------------------------------------------------
  // Characters
  // ---------------------------------------------------------------------

  /** The white space and line terminators that `trim`, `parseInt`,
      `parseFloat` and the regular-expression class `\s` skip. */
  predicate IsSpace(c: char) {
    || c == ' ' || c == '\t' || c == '\n' || c == '\r'
    || c == '\U{0B}' || c == '\U{0C}' || c == '\U{A0}' || c == '\U{1680}'
    || ('\U{2000}' <= c <= '\U{200A}')
    || c == '\U{2028}' || c == '\U{2029}' || c == '\U{202F}' || c == '\U{205F}'
    || c == '\U{3000}' || c == '\U{FEFF}'
  }

  predicate IsDigit(c: char) {
    '0' <= c <= '9'
  }

  predicate IsDigits(s: string) {
    forall i :: 0 <= i < |s| ==> IsDigit(s[i])
  }

  /** The value of `c` as a digit in radix up to 36; 36 when it is no digit at all. */
  function DigitValue(c: char): (d: nat)
    ensures d <= 36
    ensures IsDigit(c) <==> d < 10
  {
    if '0' <= c <= '9' then c as int - '0' as int
    else if 'a' <= c <= 'z' then c as int - 'a' as int + 10
    else if 'A' <= c <= 'Z' then c as int - 'A' as int + 10
    else 36
  }

  function DigitChar(d: nat): (c: char)
    requires d < 10
    ensures IsDigit(c) && DigitValue(c) == d
  {
    ('0' as int + d) as char
  }

  // ---------------------------------------------------------------------
  // Upper-casing
  // ---------------------------------------------------------------------

  /** Upper-case mapping of one character: ASCII letters and the Latin-1
      lower-case letters that have a one-character upper-case form. */
  function UpperChar(c: char): char {
    if 'a' <= c <= 'z' then (c as int - 32) as char
    else if '\U{E0}' <= c <= '\U{FE}' && c != '\U{F7}' then (c as int - 32) as char
    else c
  }

  function Upper(s: string): (r: string)
    ensures |r| == |s|
    ensures forall i :: 0 <= i < |s| ==> r[i] == UpperChar(s[i])
  {
    if |s| == 0 then "" else [UpperChar(s[0])] + Upper(s[1..])
  }

  /** script.js `toUpperCase(value)`: a falsy value becomes "", anything
      else is upper-cased. */
  function ToUpperCase(value: string): (r: string)
    ensures value == "" ==> r == ""
    ensures |r| == |value|
    ensures forall i :: 0 <= i < |value| ==> r[i] == UpperChar(value[i])
  {
    if value == "" then "" else Upper(value)
  }

  lemma UpperCharIdempotent(c: char)
    ensures UpperChar(UpperChar(c)) == UpperChar(c)
  {
  }

  /** Upper-casing twice is upper-casing once. */
  lemma ToUpperCaseIdempotent(s: string)
    ensures ToUpperCase(ToUpperCase(s)) == ToUpperCase(s)
  {
    var u := ToUpperCase(s);
    forall i | 0 <= i < |s|
      ensures ToUpperCase(u)[i] == u[i]
    {
      UpperCharIdempotent(s[i]);
    }
  }

  // ---------------------------------------------------------------------
  // Trimming
  // ---------------------------------------------------------------------

  /** The first index at or after `from` that holds no white space. */
  function SkipSpaces(s: string, from: nat): (e: nat)
    requires from <= |s|
    ensures from <= e <= |s|
    ensures forall i :: from <= i < e ==> IsSpace(s[i])
    ensures e < |s| ==> !IsSpace(s[e])
    decreases |s| - from
  {
    if from < |s| && IsSpace(s[from]) then SkipSpaces(s, from + 1) else from
  }

  /** The smallest index `b <= to` such that `s[b..to]` is all white space. */
  function SpacesBefore(s: string, to: nat): (b: nat)
    requires to <= |s|
    ensures b <= to
    ensures forall i :: b <= i < to ==> IsSpace(s[i])
    ensures b > 0 ==> !IsSpace(s[b - 1])
  {
    if to > 0 && IsSpace(s[to - 1]) then SpacesBefore(s, to - 1) else to
  }

  /** `String.prototype.trim`: the slice of `s` left after cutting white
      space from both ends. */
  function Trim(s: string): (r: string)
    ensures var a := SkipSpaces(s, 0); a + |r| <= |s| && r == s[a..a + |r|]
    ensures |r| > 0 ==> !IsSpace(r[0]) && !IsSpace(r[|r| - 1])
    ensures forall i :: SkipSpaces(s, 0) + |r| <= i < |s| ==> IsSpace(s[i])
    ensures (forall i :: 0 <= i < |s| ==> IsSpace(s[i])) <==> r == ""
  {
    var a := SkipSpaces(s, 0);
    var b := SpacesBefore(s, |s|);
    if b <= a then "" else s[a..b]
  }

  // ---------------------------------------------------------------------
  // Substrings
  // ---------------------------------------------------------------------

  /** `s.includes(t)`. */
  predicate Contains(s: string, t: string) {
    exists i | 0 <= i <= |s| - |t| :: OccursAt(s, t, i)
  }

  /** `t` occurs in `s` starting at index `i`. */
  predicate OccursAt(s: string, t: string, i: int) {
    0 <= i && i + |t| <= |s| && s[i..i + |t|] == t
  }

  // ---------------------------------------------------------------------
  // Digit strings and decimal printing
  // ---------------------------------------------------------------------

  function Pow10(k: nat): (p: nat)
    ensures p >= 1
  {
    if k == 0 then 1 else 10 * Pow10(k - 1)
  }

  /** The value of a digit string read in `radix`, most significant first. */
  function RadixValue(s: string, radix: nat): nat
    requires forall i :: 0 <= i < |s| ==> DigitValue(s[i]) < radix
  {
    if |s| == 0 then 0
    else RadixValue(s[..|s| - 1], radix) * radix + DigitValue(s[|s| - 1])
  }

  function DigitsValue(s: string): nat
    requires IsDigits(s)
  {
    RadixValue(s, 10)
  }

  /** Reading the concatenation of two digit strings. */
  lemma {:induction false} DigitsValueAppend(a: string, b: string)
    requires IsDigits(a) && IsDigits(b)
    ensures IsDigits(a + b)
    ensures DigitsValue(a + b) == DigitsValue(a) * Pow10(|b|) + DigitsValue(b)
  {
    if |b| == 0 {
      assert a + b == a;
    } else {
      var b' := b[..|b| - 1];
      assert (a + b)[..|a + b| - 1] == a + b';
      assert (a + b)[|a + b| - 1] == b[|b| - 1];
      DigitsValueAppend(a, b');
    }
  }

  /** `n.toString()` for a non-negative integer: decimal digits, no leading
      zero except for 0 itself. */
  function NatToString(n: nat): (r: string)
    ensures |r| >= 1 && IsDigits(r)
    ensures DigitsValue(r) == n
    ensures r[0] == '0' <==> n == 0
    ensures n == 0 ==> r == "0"
  {
    if n < 10 then
      var r := [DigitChar(n)];
      assert r[..0] == [];
      assert DigitsValue(r) == RadixValue(r[..0], 10) * 10 + DigitValue(r[0]);
      r
    else
      var p := NatToString(n / 10);
      var r := p + [DigitChar(n % 10)];
      assert r[..|r| - 1] == p;
      assert r[0] == p[0];
      assert DigitsValue(r) == DigitsValue(p) * 10 + n % 10;
      assert n == (n / 10) * 10 + n % 10;
      r
  }

  /** `n.toString()` for an integer. */
  function IntToString(n: int): (r: string)
    ensures |r| >= 1
    ensures n < 0 <==> r[0] == '-'
    ensures n >= 0 ==> r == NatToString(n)
    ensures n < 0 ==> r == "-" + NatToString(-n)
  {
    if n < 0 then "-" + NatToString(-n) else NatToString(n)
  }

  // ---------------------------------------------------------------------
  // Scanning numbers
  // ---------------------------------------------------------------------

  /** The first index at or after `from` that holds no digit of `radix`. */
  function RunEnd(s: string, from: nat, radix: nat): (e: nat)
    requires from <= |s|
    ensures from <= e <= |s|
    ensures forall i :: from <= i < e ==> DigitValue(s[i]) < radix
    ensures e < |s| ==> DigitValue(s[e]) >= radix
    decreases |s| - from
  {
    if from < |s| && DigitValue(s[from]) < radix then RunEnd(s, from + 1, radix) else from
  }

  /** A run of digits that ends at `to` (the end of `s` or a non-digit) is
      exactly what `RunEnd` finds. */
  lemma {:induction false} RunEndExact(s: string, from: nat, to: nat)
    requires from <= to <= |s|
    requires forall i :: from <= i < to ==> IsDigit(s[i])
    requires to < |s| ==> !IsDigit(s[to])
    ensures RunEnd(s, from, 10) == to
    decreases (to as int) - (from as int)
  {
    if from < to {
      RunEndExact(s, from + 1, to);
    }
  }

  /** Where the number starts once white space and one sign are skipped,
      and whether that sign was a minus. */
  function SignEnd(s: string, a: nat): (b: nat)
    requires a <= |s|
    ensures a <= b <= |s|
  {
    if a < |s| && (s[a] == '-' || s[a] == '+') then a + 1 else a
  }

  predicate NegativeAt(s: string, a: nat) {
    a < |s| && s[a] == '-'
  }

  /** `parseInt(s)` with no radix argument: leading white space, an optional
      sign, a `0x`/`0X` prefix that switches to hexadecimal, then the longest
      run of digits; `None` stands for NaN (no digit at all). */
  function ParseInt(s: string): (r: Option<int>)
    ensures NoDigits(s) ==> r.None?
  {
    var a := SkipSpaces(s, 0);
    var b := SignEnd(s, a);
    var hex := b + 1 < |s| && s[b] == '0' && (s[b + 1] == 'x' || s[b + 1] == 'X');
    var radix := if hex then 16 else 10;
    var c := if hex then b + 2 else b;
    var e := RunEnd(s, c, radix);
    assert NoDigits(s) ==> e == c by {
      if NoDigits(s) && c < |s| {
        assert !hex && DigitValue(s[c]) >= 10;
      }
    }
    if e == c then None
    else
      var m: int := RadixValue(s[c..e], radix);
      Some(if NegativeAt(s, a) then -m else m)
  }

  /** Printing an integer and reading it back with `parseInt` gives the
      integer. */
  lemma ParseIntOfIntToString(n: int)
    ensures ParseInt(IntToString(n)) == Some(n)
  {
    var s := IntToString(n);
    var digits := NatToString(if n < 0 then -n else n);
    var b := if n < 0 then 1 else 0;
    assert s[b..] == digits;
    assert SkipSpaces(s, 0) == 0;
    assert SignEnd(s, 0) == b;
    assert s[b] == digits[0];
    assert s[b..|s|] == digits;
    RunEndExact(s, b, |s|);
  }

  /** The pieces of a decimal literal as `parseFloat` scans them: integer
      digits, fraction digits and the exponent. */
  datatype Literal = Literal(intDigits: string, fracDigits: string, exponent: int)

  /** The exponent of an optional `e`/`E` part starting at `k`; 0 when there
      is none or no digit follows the `e` and its sign (`parseFloat` then
      stops before the `e`). */
  function ExponentAt(s: string, k: nat): int
    requires k <= |s|
  {
    if k < |s| && (s[k] == 'e' || s[k] == 'E') then
      var j := SignEnd(s, k + 1);
      var e := RunEnd(s, j, 10);
      if e == j then 0
      else if NegativeAt(s, k + 1) then -(DigitsValue(s[j..e]) as int)
      else DigitsValue(s[j..e])
    else 0
  }

  /** Scans the longest decimal-literal prefix of `s` from index `b` on. */
  function ScanLiteral(s: string, b: nat): (l: Literal)
    requires b <= |s|
    ensures IsDigits(l.intDigits) && IsDigits(l.fracDigits)
  {
    var e1 := RunEnd(s, b, 10);
    var dot := e1 < |s| && s[e1] == '.';
    var e2 := if dot then RunEnd(s, e1 + 1, 10) else e1;
    var fp := if dot then s[e1 + 1..e2] else "";
    Literal(s[b..e1], fp, ExponentAt(s, e2))
  }

  /** The exact value a scanned literal denotes. */
  function LiteralValue(l: Literal): real
    requires IsDigits(l.intDigits) && IsDigits(l.fracDigits)
  {
    DigitsValueAppend(l.intDigits, l.fracDigits);
    var m := DigitsValue(l.intDigits + l.fracDigits);
    var k := l.exponent - |l.fracDigits|;
    if k >= 0 then (m * Pow10(k)) as real else m as real / (Pow10(-k) as real)
  }

  /** `parseFloat(s)`: leading white space, an optional sign, then the longest
      prefix of the form `digits[.digits][e[sign]digits]` or `.digits[...]`;
      `None` stands for NaN (no digit before the exponent). */
  function ParseFloat(s: string): (r: Option<real>)
    ensures NoDigits(s) ==> r.None?
  {
    var a := SkipSpaces(s, 0);
    var l := ScanLiteral(s, SignEnd(s, a));
    assert NoDigits(s) ==> |l.intDigits| + |l.fracDigits| == 0 by {
      if NoDigits(s) {
        ScanNoDigits(s, SignEnd(s, a));
      }
    }
    if |l.intDigits| + |l.fracDigits| == 0 then None
    else
      var m := LiteralValue(l);
      Some(if NegativeAt(s, a) then -m else m)
  }

  /** The number written `ip.fp`. */
  function DecimalValue(ip: string, fp: string): real
    requires IsDigits(ip) && IsDigits(fp)
  {
    DigitsValueAppend(ip, fp);
    DigitsValue(ip + fp) as real / (Pow10(|fp|) as real)
  }

  lemma LiteralValueDecimal(ip: string, fp: string)
    requires IsDigits(ip) && IsDigits(fp) && |fp| >= 1
    ensures LiteralValue(Literal(ip, fp, 0)) == DecimalValue(ip, fp)
  {
    DigitsValueAppend(ip, fp);
  }

  /** A digit string written at `from` and followed by the end of the text or
      a non-digit is the run `RunEnd` finds there. */
  lemma DigitRunAt(s: string, from: nat, t: string)
    requires IsDigits(t) && from + |t| <= |s|
    requires forall i :: 0 <= i < |t| ==> s[from + i] == t[i]
    requires from + |t| < |s| ==> !IsDigit(s[from + |t|])
    ensures RunEnd(s, from, 10) == from + |t|
    ensures s[from..from + |t|] == t
  {
    forall i | from <= i < from + |t|
      ensures IsDigit(s[i])
    {
      assert s[from + (i - from)] == t[i - from];
    }
    RunEndExact(s, from, from + |t|);
  }

  /** How `parseFloat` scans integer digits, a dot and fraction digits that
      run to the end of the text. */
  lemma ScanUnsignedDecimal(s: string, b: nat, ip: string, fp: string)
    requires IsDigits(ip) && IsDigits(fp)
    requires b + |ip| + 1 + |fp| == |s|
    requires forall i :: 0 <= i < |ip| ==> s[b + i] == ip[i]
    requires s[b + |ip|] == '.'
    requires forall i :: 0 <= i < |fp| ==> s[b + |ip| + 1 + i] == fp[i]
    ensures ScanLiteral(s, b) == Literal(ip, fp, 0)
  {
    var d := b + |ip|;
    DigitRunAt(s, b, ip);
    DigitRunAt(s, d + 1, fp);
    assert ExponentAt(s, |s|) == 0;
  }

  /** How `parseFloat` scans an optional minus sign, integer digits, a dot
      and fraction digits, with nothing after them. */
  lemma ScanDecimal(neg: bool, ip: string, fp: string)
    requires IsDigits(ip) && IsDigits(fp) && |ip| >= 1
    ensures var s := (if neg then "-" else "") + ip + "." + fp;
      && SkipSpaces(s, 0) == 0
      && NegativeAt(s, 0) == neg
      && SignEnd(s, 0) <= |s|
      && ScanLiteral(s, SignEnd(s, 0)) == Literal(ip, fp, 0)
  {
    var sign := if neg then "-" else "";
    var s := sign + ip + "." + fp;
    var b := |sign|;
    assert forall i :: 0 <= i < |ip| ==> s[b + i] == ip[i];
    assert s[b + |ip|] == '.';
    assert forall i :: 0 <= i < |fp| ==> s[b + |ip| + 1 + i] == fp[i];
    assert s[b] == ip[0];
    assert SkipSpaces(s, 0) == 0;
    assert SignEnd(s, 0) == b;
    ScanUnsignedDecimal(s, b, ip, fp);
  }

  /** Text with no decimal digit in it. */
  predicate NoDigits(s: string) {
    forall i :: 0 <= i < |s| ==> !IsDigit(s[i])
  }

  /** Scanning text without a digit finds no digits. */
  lemma ScanNoDigits(s: string, b: nat)
    requires NoDigits(s) && b <= |s|
    ensures ScanLiteral(s, b).intDigits == "" && ScanLiteral(s, b).fracDigits == ""
  {
    assert RunEnd(s, b, 10) == b;
    if b + 1 <= |s| {
      assert RunEnd(s, b + 1, 10) == b + 1;
    }
  }

  /** `parseFloat` of text whose first character is neither white space, a
      sign, a point, a digit nor the `I` of `Infinity` is NaN. */
  lemma ParseFloatLeadingJunk(s: string)
    requires |s| > 0 && !IsSpace(s[0]) && !IsDigit(s[0])
    requires s[0] != '+' && s[0] != '-' && s[0] != '.' && s[0] != 'I'
    ensures ParseFloat(s).None?
  {
    assert SkipSpaces(s, 0) == 0;
    assert SignEnd(s, 0) == 0;
    assert RunEnd(s, 0, 10) == 0;
  }

  /** How `parseFloat` scans integer digits that run to the end of the text. */
  lemma ScanUnsignedInteger(s: string, b: nat, ip: string)
    requires IsDigits(ip) && b + |ip| == |s|
    requires forall i :: 0 <= i < |ip| ==> s[b + i] == ip[i]
    ensures ScanLiteral(s, b) == Literal(ip, "", 0)
  {
    DigitRunAt(s, b, ip);
    assert ExponentAt(s, |s|) == 0;
  }

  lemma LiteralValueInteger(ip: string)
    requires IsDigits(ip)
    ensures LiteralValue(Literal(ip, "", 0)) == DigitsValue(ip) as real
  {
    DigitsValueAppend(ip, "");
    assert ip + "" == ip;
  }

  /** What `parseFloat` reads from an optional minus sign and a digit string,
      with nothing after them. */
  lemma ParseFloatInteger(neg: bool, ip: string)
    requires IsDigits(ip) && |ip| >= 1
    ensures ParseFloat((if neg then "-" else "") + ip)
         == Some(if neg then -(DigitsValue(ip) as real) else DigitsValue(ip) as real)
  {
    var sign := if neg then "-" else "";
    var s := sign + ip;
    var b := |sign|;
    assert forall i :: 0 <= i < |ip| ==> s[b + i] == ip[i];
    assert s[b] == ip[0];
    assert SkipSpaces(s, 0) == 0;
    assert SignEnd(s, 0) == b;
    ScanUnsignedInteger(s, b, ip);
    LiteralValueInteger(ip);
  }

  /** What `parseFloat` reads from an optional minus sign, an integer digit
      string, a dot and a fraction digit string, with nothing after them. */
  lemma ParseFloatDecimal(neg: bool, ip: string, fp: string)
    requires IsDigits(ip) && IsDigits(fp) && |ip| >= 1 && |fp| >= 1
    ensures ParseFloat((if neg then "-" else "") + ip + "." + fp)
         == Some(if neg then -DecimalValue(ip, fp) else DecimalValue(ip, fp))
  {
    ScanDecimal(neg, ip, fp);
    LiteralValueDecimal(ip, fp);
  }
}

=== FILE: wizard.dfy ===
/**
 The five-tab order form of public/script.js: `currentTab`, the Next and
 Previous buttons, switching by tab id, and which of Previous, Next and Save
 are visible.
 */
module Wizard {

  const Tabs: seq<string> := ["tab-geral", "tab-fornecedor", "tab-pedido", "tab-entrega", "tab-pagamento"]

  predicate InRange(t: int) {
    0 <= t < |Tabs|
  }

  /** nextTab: one tab forward, except on the last tab. */
  function Next(t: int): (r: int)
    ensures InRange(t) ==> InRange(r)
    ensures t < |Tabs| - 1 ==> r == t + 1
    ensures t >= |Tabs| - 1 ==> r == t
  {
    if t < |Tabs| - 1 then t + 1 else t
  }

  /** previousTab: one tab back, except on the first tab. */
  function Previous(t: int): (r: int)
    ensures InRange(t) ==> InRange(r)
    ensures t > 0 ==> r == t - 1
    ensures t <= 0 ==> r == t
  {
    if t > 0 then t - 1 else t
  }

  /** Next undoes Previous away from the first tab, and Previous undoes Next
      away from the last one. */
  lemma NextPreviousInverse(t: int)
    requires InRange(t)
    ensures t > 0 ==> Next(Previous(t)) == t
    ensures t < |Tabs| - 1 ==> Previous(Next(t)) == t
  {
  }

  /** Pressing Next |Tabs| times from any tab ends on the last tab. */
  function NextTimes(t: int, n: nat): int {
    if n == 0 then t else Next(NextTimes(t, n - 1))
  }

  lemma {:induction false} NextReachesLast(t: int, n: nat)
    requires InRange(t)
    ensures InRange(NextTimes(t, n))
    ensures NextTimes(t, n) == if t + n < |Tabs| - 1 then t + n else |Tabs| - 1
  {
    if n > 0 {
      NextReachesLast(t, n - 1);
    }
  }

  /** switchTab: the index of the tab id, or no change for an unknown id. */
  function SwitchTab(t: int, tabId: string): (r: int)
    ensures tabId in Tabs ==> InRange(r) && Tabs[r] == tabId
    ensures tabId !in Tabs ==> r == t
  {
    if tabId in Tabs then IndexOf(tabId) else t
  }

  function IndexOf(tabId: string): (k: int)
    requires tabId in Tabs
    ensures InRange(k) && Tabs[k] == tabId
  {
    if Tabs[0] == tabId then 0
    else if Tabs[1] == tabId then 1
    else if Tabs[2] == tabId then 2
    else if Tabs[3] == tabId then 3
    else 4
  }

  /** updateNavigationButtons: which buttons are displayed. */
  datatype Buttons = Buttons(previous: bool, next: bool, save: bool)

  function NavButtons(t: int): (b: Buttons)
    ensures b.next != b.save
    ensures b.save <==> t >= |Tabs| - 1
    ensures b.previous <==> t > 0
  {
    Buttons(t > 0, t < |Tabs| - 1, !(t < |Tabs| - 1))
  }

  /** Save shows exactly on the last tab, and Next moves exactly when it is
      visible. */
  lemma ButtonsMatchMoves(t: int)
    requires InRange(t)
    ensures NavButtons(t).save <==> t == |Tabs| - 1
    ensures NavButtons(t).next <==> Next(t) != t
    ensures NavButtons(t).previous <==> Previous(t) != t
  {
  }
}
